=== FILE: README.md ===
# Evolution API client, modelled in Dafny

This project models the transport core of the Python client for the
Evolution API, a WhatsApp gateway. The model covers four pieces:

- **The client** (`EvolutionAPI`): it normalises the base URL, installs two
  default headers, builds each request URL as `base_url + path`, and classifies
  every reply. A status of 400 or more raises a typed error. A lower status
  returns the decoded body.
- **The verb helpers** `_get`, `_post`, `_put` and `_delete`, which differ only
  in the HTTP verb.
- **The typed error** (`EvolutionAPIError`): a status code, a message and an
  optional decoded body, rendered as `HTTP <status>: <message>`.
- **`Instance.create`**: it builds the 33-field request body and fills in the
  list defaults. It adds the proxy when one is given and drops every field
  whose value is `None`. It then makes one POST to `/instance/create`.

The modules follow the program:

| module | file | what it holds |
|---|---|---|
| `Wrappers` | wrappers.dfy | `Option` and `Result` |
| `AssocLists` | assoc_lists.dfy | Python dicts as ordered association lists: `d.get(k)` is `Lookup`, `d[k] = v` is `Assign` |
| `JsonValues` | json_values.dfy | decoded JSON values, which `response.json()` returns |
| `PyText` | py_text.dfy | Python `str()` and `repr()` of integers and decoded JSON, each with a parser that reads it back |
| `Exceptions` | exceptions.dfy | `EvolutionAPIError` and its text |
| `Client` | client.dfy | construction, reply classification, `_request` and the four verbs |
| `Instances` | instances.dfy | `Instance.create` and its request body |

The HTTP session is not modelled. It becomes a function parameter
`transport: Call<O> -> Reply`:

- a `Call` carries the verb, the URL and the keyword options;
- a `Reply` is either a response or a transport failure;
- a response carries a status and the decoded body, which is `None` when the
  body is not JSON.

The keyword options are a type parameter `O` that the client passes through
untouched. The outcome of a request is a `Result<Json, Fault>` with three kinds
of fault:

- `ServiceError`: the typed error;
- `DecodeFailure`: a body below 400 that did not decode, which the client does
  not catch;
- `TransportError`: a failure raised by the session.

Four behaviours of the code are easy to misread. The model follows the code:

- `rstrip("/")` removes every trailing slash, not just one.
- A status of 400 or more whose body decodes to something that is not a JSON
  object (a list, a string, `null`) does not count as a successfully parsed
  body. Calling `.get` on it raises inside the same `try`, so the error message
  becomes "Failed to parse error response" and the response is `None`.
  `Client.Dispatch` states this case.
- The `error` field of an error body may hold any JSON value, not only a
  string. The message is therefore a `Json`, and the exception text uses
  Python's `str()` of that value: a string is shown as itself, anything else as
  its `repr()`.
- The trimmed base URL never ends in a slash; it is empty when the configured
  URL is made entirely of slashes, and the request URL is then the path alone.
  Otherwise the only slash at the junction with a leading-slash path is the
  path's own; a path that starts with `//` keeps both. `Client.SingleSlashAtJunction` carries that condition.

## Model

| member | source | states |
|---|---|---|
| `AssocLists.Lookup` | evolutionapi/client.py:41 | `d.get(key)` finds a value exactly when some entry has that key, and the value it returns is bound to the key in the dict |
| `AssocLists.LookupBinding` | evolutionapi/client.py:41 | in a dict with distinct keys, looking up any entry's key yields that entry's value |
| `AssocLists.Assign` | evolutionapi/resources/instances.py:138-139 | after `d[key] = value`, `key` maps to `value` and every other key keeps its value; a new key is appended at the end |
| `Client.TrimTrailingSlashes` | evolutionapi/client.py:20 | `rstrip("/")` leaves no trailing slash, returns a prefix of the input, and removes only slashes |
| `Client.TrimCharacterised` | evolutionapi/client.py:20 | any string made of a slash-free-ending part `p` followed by slashes is trimmed to exactly `p`, so the three guarantees determine the result |
| `Client.TrimIdempotent` | evolutionapi/client.py:20 | normalising an already normalised URL changes nothing |
| `Client.TrimIgnoresTrailingSlash` | evolutionapi/client.py:20 | a base URL with or without an extra trailing slash is stored the same way |
| `Client.SetDefaultHeaders` | evolutionapi/client.py:22-25 | the session headers gain `Content-Type: application/json` and `apikey: <key>`, and every other header is kept unchanged |
| `Client.NewClient` | evolutionapi/client.py:12-25 | the stored base URL has no trailing slash and is the given URL minus its trailing slashes; the key is stored; the headers are the session's plus the two defaults |
| `Client.DefaultHeadersExactly` | evolutionapi/client.py:23-25 | on a session that carries no headers of its own, the headers are exactly the content type and the API key |
| `Client.ConstructionExamples` | tests/test_client.py:31-34 | `"https://api.example.com/"` is stored as `"https://api.example.com"`, and so is the URL without the slash |
| `Client.Dispatch` | evolutionapi/client.py:35-53 | a reply succeeds if and only if its status is below 400 and its body decoded, and then it returns that body unchanged. An undecodable body below 400 is a decode fault. At 400 or more it always raises a service error carrying the status. The error's response is present exactly when the body decoded to an object, and it is then the whole body. Otherwise the message is "Failed to parse error response" |
| `Client.DispatchErrorField` | evolutionapi/client.py:39-42 | an error object binding `error` raises with that value as the message and the whole body as the response |
| `Client.DispatchUnknownError` | evolutionapi/client.py:36-42 | an error object without an `error` key raises "Unknown error" with the whole body as the response |
| `Client.DispatchExamples` | tests/test_client.py:94-120 | a 400 reply with `{"error": "Bad request"}` and a 500 reply that does not parse raise the errors the client's tests expect |
| `Client.DispatchSuccessExample` | tests/test_client.py:36-48 | a 200 reply with `{"data": "test_data"}` returns that body, as the client's test expects |
| `Client.RunRequestBody` | evolutionapi/client.py:35-53 | executed statement by statement, the `try`/`except` body either returns or raises, never both and never neither, and agrees with `Dispatch` |
| `Client.Request` | evolutionapi/client.py:30-53 | `_request` sends the verb and options unchanged to exactly `base_url + path`, with the session's headers attached. It succeeds only below 400 with a decoded body. A transport failure propagates unchanged, and any reply is classified by `Dispatch` |
| `Client.VerbMethods` | evolutionapi/client.py:55-65 | `_get`, `_post`, `_put` and `_delete` send `GET`, `POST`, `PUT` and `DELETE` with the path, the session headers and the options passed through |
| `Client.SingleSlashAtJunction` | evolutionapi/client.py:20-31 | for a path starting with `/` and a base URL that is not all slashes, the trimmed base contributes no slash to the request URL, so the slash at the junction is the path's own leading one |
| `Client.RequestCarriesApiKey` | evolutionapi/client.py:22-33 | every request of a client goes out with its `apikey` and `Content-Type: application/json` headers, so clients with different keys send different calls |
| `Client.GetExample` | tests/test_client.py:36-48 | the GET scenario sends `GET https://api.example.com/test-path` with the params, the JSON content type and the `test-api-key` key, and returns `{"data": "test_data"}` |
| `Exceptions.Construction` | evolutionapi/exceptions.py:7-25 | the error stores status, message and response as given, the response defaults to absent, and a string message appears verbatim in the text |
| `Exceptions.ParseFormatted` | evolutionapi/exceptions.py:25 | any status code and message written as `HTTP <status>: <message>` can be read back unchanged |
| `Exceptions.Text` | evolutionapi/exceptions.py:25 | the text `HTTP <status>: <message>` reads back as the status code and `str()` of the message, so it loses neither; a string message reads back verbatim |
| `PyText.NatToDecimal` | evolutionapi/exceptions.py:25 | the decimal rendering of a natural number is non-empty, all digits, and has no leading zero |
| `PyText.DecimalRoundTrip` | evolutionapi/exceptions.py:25 | reading back the decimal digits of `n` gives `n` |
| `PyText.IntToDecimal` | evolutionapi/exceptions.py:25 | `str(status_code)` starts with `-` exactly for a negative code, and its digits denote the code's magnitude with no leading zero |
| `PyText.IntRoundTrip` | evolutionapi/exceptions.py:25 | `str()` of any integer reads back as that integer, and the reader stops exactly where the digits end when a non-digit follows |
| `PyText.ReprStr` | evolutionapi/exceptions.py:25 | `repr()` of a string is delimited by the same quote at both ends: a double quote exactly when the string holds a single quote and no double quote, a single quote otherwise |
| `PyText.ReprStrRoundTrip` | evolutionapi/exceptions.py:25 | `repr()` of a string, which appears when the message is nested in a list or object, reads back as the string, and the reader stops at the closing quote whatever follows |
| `PyText.Repr` | evolutionapi/exceptions.py:25 | `repr()` of a decoded value is non-empty and starts like a Python literal (`None`, `True`, `False`, a sign or digit, a quote, `[` or `{`); lists are bracketed and objects braced |
| `PyText.ReprRoundTrip` | evolutionapi/exceptions.py:25 | `repr()` of any decoded value is lossless: reading it back as a Python literal gives the value and stops exactly where the literal ends |
| `PyText.Str` | evolutionapi/exceptions.py:25 | `str()` of a string message is the string itself, and of any other value a text that reads back as exactly that value |
| `Instances.ListOrEmpty` | evolutionapi/resources/instances.py:110 | `events or []` is the list given, and `[]` when none is given (an empty list given is falsy and is replaced by an equal `[]`) |
| `Instances.Fields` | evolutionapi/resources/instances.py:102-136 | the `data` dict has exactly 33 entries, one per field name; the key order is stated by `Instances.FieldKeys` and each value by the `…AlwaysPresent` and `…IffSupplied` lemmas below |
| `Instances.FieldKeys` | evolutionapi/resources/instances.py:102-136 | the `data` dict has exactly the 33 keys, in the order the source writes them |
| `Instances.AddProxy` | evolutionapi/resources/instances.py:138-139 | with a proxy, `proxy` is bound to it; every other key keeps what it was bound to; without a proxy the dict is unchanged |
| `Instances.StripNone` | evolutionapi/resources/instances.py:141 | the comprehension keeps exactly the entries whose value is not `None`: every kept entry is an entry of the dict with a present value, every present entry is kept, and the body is no longer than the dict |
| `Instances.StripNoneAppend` | evolutionapi/resources/instances.py:141 | dropping `None`s from two tables one after the other is the same as dropping them from their concatenation |
| `Instances.LookupStripNone` | evolutionapi/resources/instances.py:141 | for a dict with distinct keys, every key of the body has the dict's value for it, and a key is absent exactly when the dict lacks it or maps it to `None` |
| `Instances.StripNoneDistinct` | evolutionapi/resources/instances.py:141 | the body never binds a key twice |
| `Instances.FieldNamesDistinct` | evolutionapi/resources/instances.py:102-136 | the 33 keys of the `data` dict are pairwise distinct |
| `Instances.ProxyKeyNotAField` | evolutionapi/resources/instances.py:102-139 | `proxy` is not one of the 33 fixed keys, so adding it appends a new entry |
| `Instances.FieldsShape` | evolutionapi/resources/instances.py:102-136 | the `data` dict binds no key twice and has no `proxy` key |
| `Instances.TableShape` | evolutionapi/resources/instances.py:102-139 | after the proxy step the dict still has distinct keys and the fixed entries unchanged, followed by one more entry `proxy` exactly when a proxy is given |
| `Instances.CleanData` | evolutionapi/resources/instances.py:102-141 | the body never binds a key twice, and binds a key exactly when the dict (after the proxy step) binds it to a value other than `None`, and then to that value |
| `Instances.FieldInBody` | evolutionapi/resources/instances.py:102-141 | each fixed entry of the dict is what the body holds under its key, and is absent from the body when its value is `None` |
| `Instances.OptionalFieldsIffSupplied` | evolutionapi/resources/instances.py:102-141 | `token`, `number`, `webhook` and `msg_call` are in the body if and only if they are supplied, and then with the supplied value |
| `Instances.TypebotFieldsIffSupplied` | evolutionapi/resources/instances.py:123-141 | the six optional Typebot arguments are in the body if and only if they are supplied, and then with the supplied value |
| `Instances.ChatwootFieldsIffSupplied` | evolutionapi/resources/instances.py:130-141 | the three optional Chatwoot arguments are in the body if and only if they are supplied, and then with the supplied value |
| `Instances.EventListsAlwaysPresent` | evolutionapi/resources/instances.py:110-122 | the four event lists are always in the body: the supplied list, or `[]` when none was given |
| `Instances.FlagsAlwaysPresent` | evolutionapi/resources/instances.py:102-116 | the name, `qrcode`, `integration` and the connection flags are always in the body with their given or default values, an explicit `False` included |
| `Instances.IntegrationFlagsAlwaysPresent` | evolutionapi/resources/instances.py:117-135 | the websocket, RabbitMQ, SQS, Typebot and Chatwoot flags are always in the body with their given or default values |
| `Instances.ProxyIffSupplied` | evolutionapi/resources/instances.py:138-141 | the body binds `proxy` if and only if a proxy is given, and then to that proxy |
| `Instances.PayloadKeysKnown` | evolutionapi/resources/instances.py:102-141 | every key of the body is one of the 33 field names or `proxy` |
| `Instances.Create` | evolutionapi/resources/instances.py:143 | `create` makes one `POST` to `base_url + "/instance/create"` with the client's session headers and `json=` the cleaned body. Its outcome is the client's classification of the reply: a success is the decoded body unchanged, and transport failures and service errors propagate |
| `Instances.CreateRefused` | tests/resources/test_instances.py:103-117 | a 403 reply with an `error` field surfaces from `create` as a service error with status 403, that message and the whole body |
| `Instances.MinimalBodyShape` | tests/resources/test_instances.py:29-51 | the expected body of the minimal call has 21 keys and no `proxy` |
| `Instances.MinimalPayload` | tests/resources/test_instances.py:19-52 | `create(instance_name="teste-docs", token="my-custom-token")` posts exactly the 21 fields the test expects, in order |

The request body type `Payload` pairs each key with a `Value` that has no
`None` case. That no key maps to `None` is therefore part of `CleanData`'s
type.

## Left out

- The `requests` session, the network and the JSON decoder are not modelled. They become the `transport` parameter, and a body that fails to decode becomes a `None` body.
- Session headers are a case-sensitive `map<string, string>`. `requests` stores them in a case-insensitive dict.
- `Instance(self)`, which registers the resource on the client, is left out. `Instance` only keeps a reference to the client, and `Create` takes the client directly.
- JSON numbers with a fraction or exponent are left out. Python floats and their `repr` have no counterpart in `JsonValues`.
- `PyText.Repr` writes as `\xhh` exactly the characters up to U+00FF that Python does not print: the C0 controls other than tab, newline and carriage return (which get `\t`, `\n`, `\r`), DEL, the C1 controls, the no-break space and the soft hyphen. It writes every character above U+00FF as itself. Python's `repr` writes the non-printable ones among those as `\uXXXX` or `\UXXXXXXXX`. Telling them apart needs the Unicode database, so this is not modelled.
- `Instances.Create` takes the proxy as a `ProxySettings` record. A pydantic model defines neither `__bool__` nor `__len__`, so `if proxy:` is true exactly when a proxy is given. A plain dict passed in its place, whose truth would depend on being empty, is not modelled.
- Passing `None` for a parameter typed `bool` or `str` (for example `qrcode=None`) is not modelled. Python would drop such a key too, but the signature excludes it.
- How `requests` serialises the body into JSON is not modelled. The body holds the `ProxySettings` record itself, as the instance test compares it with `_post` replaced by a mock (tests/resources/test_instances.py:158-172). In the program, `json.dumps` raises `TypeError` on a pydantic object, so `create` with a proxy raises from inside the session before any request is sent. The model covers that only as the `TransportError` case of `transport`.
- A decoded error object that binds `error` twice cannot come out of a JSON decoder. `AssocLists.Lookup` returns the first binding.
- `python_evolution_api/evolution_api.py`, the separate one-endpoint server-info client, is not part of this model.
- `evolutionapi/schemas.py` is not part of this model, apart from the fields of `ProxySettings`. Its validation is not modelled.
- `Instance.fetch` and its path table are not part of this model.

=== FILE: assoc_lists.dfy ===
/** Association lists: the ordered key/value mappings that stand for Python
    dicts here (decoded JSON objects, the `create` field table and payload).
    A Python dict never binds a key twice; `Lookup` returns the first binding. */
module AssocLists {
  import opened Wrappers

  /** True when `key` is bound somewhere in `entries`. */
  predicate HasKey<V>(entries: seq<(string, V)>, key: string) {
    exists k :: 0 <= k < |entries| && entries[k].0 == key
  }

  /** True when `entries` binds `key` to `value` at some position. */
  predicate HasEntry<V(==)>(entries: seq<(string, V)>, key: string, value: V) {
    exists k :: 0 <= k < |entries| && entries[k] == (key, value)
  }

  /** No key is bound twice. */
  predicate DistinctKeys<V>(entries: seq<(string, V)>) {
    forall i, j :: 0 <= i < j < |entries| ==> entries[i].0 != entries[j].0
  }

  /** Python's `d.get(key)`: the value bound to `key`, if any. */
  function Lookup<V>(entries: seq<(string, V)>, key: string): (r: Option<V>)
    ensures r.Some? <==> HasKey(entries, key)
    ensures r.Some? ==> exists k :: 0 <= k < |entries| && entries[k] == (key, r.value)
  {
    if |entries| == 0 then None
    else if entries[0].0 == key then Some(entries[0].1)
    else
      var r := Lookup(entries[1..], key);
      assert HasKey(entries[1..], key) ==> HasKey(entries, key) by {
        if HasKey(entries[1..], key) {
          var k :| 0 <= k < |entries| - 1 && entries[1..][k].0 == key;
          assert entries[k + 1].0 == key;
        }
      }
      assert r.Some? ==> exists k :: 0 <= k < |entries| && entries[k] == (key, r.value) by {
        if r.Some? {
          var k :| 0 <= k < |entries| - 1 && entries[1..][k] == (key, r.value);
          assert entries[k + 1] == (key, r.value);
        }
      }
      r
  }

  /** With distinct keys, `Lookup` finds exactly the value bound at any position. */
  lemma {:induction false} LookupBinding<V>(entries: seq<(string, V)>, k: nat)
    requires DistinctKeys(entries)
    requires k < |entries|
    ensures Lookup(entries, entries[k].0) == Some(entries[k].1)
  {
    if k > 0 {
      assert entries[0].0 != entries[k].0;
      assert entries[1..][k - 1] == entries[k];
      LookupBinding(entries[1..], k - 1);
    }
  }

  /** A non-empty list binds `key` exactly when its first entry or its tail does. */
  lemma HasKeyTail<V>(entries: seq<(string, V)>, key: string)
    requires |entries| > 0
    ensures HasKey(entries, key) <==> entries[0].0 == key || HasKey(entries[1..], key)
  {
    if HasKey(entries[1..], key) {
      var k :| 0 <= k < |entries| - 1 && entries[1..][k].0 == key;
      assert entries[k + 1].0 == key;
    }
    if HasKey(entries, key) && entries[0].0 != key {
      var k :| 0 <= k < |entries| && entries[k].0 == key;
      assert k > 0 && entries[1..][k - 1].0 == key;
    }
  }

  /** Python's `d[key] = value`: rebinds `key` in place when it is bound,
      appends it otherwise. */
  function Assign<V>(entries: seq<(string, V)>, key: string, value: V): (r: seq<(string, V)>)
    ensures Lookup(r, key) == Some(value)
    ensures forall k :: k != key ==> Lookup(r, k) == Lookup(entries, k)
    ensures !HasKey(entries, key) ==> r == entries + [(key, value)]
    ensures HasKey(r, key) && |r| == |entries| + (if HasKey(entries, key) then 0 else 1)
  {
    if |entries| == 0 then [(key, value)]
    else if entries[0].0 == key then [(key, value)] + entries[1..]
    else
      var r := [entries[0]] + Assign(entries[1..], key, value);
      HasKeyTail(entries, key);
      assert !HasKey(entries, key) ==> r == entries + [(key, value)] by {
        if !HasKey(entries, key) {
          assert [entries[0]] + (entries[1..] + [(key, value)]) == entries + [(key, value)];
        }
      }
      r
  }
}

=== FILE: client.dfy ===
/** The transport client `EvolutionAPI` (evolutionapi/client.py): base-URL
    normalisation, the default header map, the single dispatch routine and its
    error classification, and the four verb methods.

    The HTTP session is abstracted: a request goes out as a `Call`, and the
    `transport` parameter answers it with a status code and the outcome of
    decoding the body as JSON (`None` when decoding raised), or with a
    transport failure. Keyword options (`params=`, `json=`, ...) are an opaque
    type parameter `O`, passed through untouched. */
module Client {
  import opened Wrappers
  import opened AssocLists
  import opened JsonValues
  import opened Exceptions

  // ---------------------------------------------------------------------
  // Base URL: base_url.rstrip("/")
  // ---------------------------------------------------------------------

  predicate EndsWithSlash(s: string) {
    |s| > 0 && s[|s| - 1] == '/'
  }

  predicate AllSlashes(s: string) {
    forall i :: 0 <= i < |s| ==> s[i] == '/'
  }

  /** Python's `s.rstrip("/")`: `s` without its trailing run of slashes. */
  function TrimTrailingSlashes(s: string): (r: string)
    ensures !EndsWithSlash(r)
    ensures |r| <= |s| && s[..|r|] == r
    ensures AllSlashes(s[|r|..])
    decreases |s|
  {
    if EndsWithSlash(s) then
      var r := TrimTrailingSlashes(s[..|s| - 1]);
      assert s[..|s| - 1][|r|..] + ['/'] == s[|r|..];
      r
    else s
  }

  /** Trimming is determined by its two guarantees: whenever `s` is `p` followed
      by slashes and `p` does not end with a slash, the trimmed string is `p`. */
  lemma {:induction false} TrimCharacterised(p: string, q: string)
    requires !EndsWithSlash(p) && AllSlashes(q)
    ensures TrimTrailingSlashes(p + q) == p
    decreases |q|
  {
    if |q| > 0 {
      assert (p + q)[..|p + q| - 1] == p + q[..|q| - 1];
      TrimCharacterised(p, q[..|q| - 1]);
    } else {
      assert p + q == p;
    }
  }

  /** Trimming twice is trimming once. */
  lemma TrimIdempotent(s: string)
    ensures TrimTrailingSlashes(TrimTrailingSlashes(s)) == TrimTrailingSlashes(s)
  {
  }

  /** An extra trailing slash on the configured URL makes no difference. */
  lemma {:induction false} TrimIgnoresTrailingSlash(s: string)
    ensures TrimTrailingSlashes(s + "/") == TrimTrailingSlashes(s)
  {
    var r := TrimTrailingSlashes(s);
    assert s == r + s[|r|..];
    assert s + "/" == r + (s[|r|..] + "/");
    TrimCharacterised(r, s[|r|..] + "/");
  }

  // ---------------------------------------------------------------------
  // Construction: EvolutionAPI(base_url, api_key)
  // ---------------------------------------------------------------------

  const ContentTypeHeader: string := "Content-Type"
  const JsonContentType: string := "application/json"
  const ApiKeyHeader: string := "apikey"

  datatype EvolutionApi = EvolutionApi(baseUrl: string, apiKey: string, headers: map<string, string>)

  /** `session.headers.update({...})`: the two client headers are set, every
      other header the session already carried is kept as it was. */
  function SetDefaultHeaders(session: map<string, string>, apiKey: string): (h: map<string, string>)
    ensures h.Keys == session.Keys + {ContentTypeHeader, ApiKeyHeader}
    ensures h[ContentTypeHeader] == JsonContentType && h[ApiKeyHeader] == apiKey
    ensures forall k :: k in session && k != ContentTypeHeader && k != ApiKeyHeader ==> h[k] == session[k]
  {
    session[ContentTypeHeader := JsonContentType][ApiKeyHeader := apiKey]
  }

  /** The client as constructed from a base URL, an API key and the headers a
      fresh session starts with. */
  function NewClient(baseUrl: string, apiKey: string, sessionHeaders: map<string, string>): (c: EvolutionApi)
    ensures !EndsWithSlash(c.baseUrl)
    ensures |c.baseUrl| <= |baseUrl| && baseUrl[..|c.baseUrl|] == c.baseUrl && AllSlashes(baseUrl[|c.baseUrl|..])
    ensures c.apiKey == apiKey
    ensures c.headers == SetDefaultHeaders(sessionHeaders, apiKey)
  {
    EvolutionApi(TrimTrailingSlashes(baseUrl), apiKey, SetDefaultHeaders(sessionHeaders, apiKey))
  }

  /** On a session that starts with no headers of its own, the headers are
      exactly the content type and the API key. */
  lemma DefaultHeadersExactly(baseUrl: string, apiKey: string)
    ensures NewClient(baseUrl, apiKey, map[]).headers
            == map[ContentTypeHeader := JsonContentType, ApiKeyHeader := apiKey]
  {
  }

  lemma ConstructionExamples()
    ensures NewClient("https://api.example.com/", "test-api-key", map[]).baseUrl == "https://api.example.com"
    ensures NewClient("https://api.example.com", "test-api-key", map[]).baseUrl == "https://api.example.com"
  {
    TrimCharacterised("https://api.example.com", "/");
    TrimCharacterised("https://api.example.com", "");
  }

  // ---------------------------------------------------------------------
  // Dispatch: _request(method, path, **kwargs)
  // ---------------------------------------------------------------------

  /** What goes out on the wire: the verb, the full URL, the session's headers
      (sent with every request) and the passthrough options. */
  datatype Call<O> = Call(verb: string, url: string, headers: map<string, string>, options: O)

  /** What the session hands back: a response (status code and the outcome of
      `response.json()`), or a transport fault raised by the session itself. */
  datatype Reply = Response(status: int, body: Option<Json>) | TransportFailure(reason: string)

  /** Everything `_request` can raise. Only `ServiceError` is classified by the
      client; the other two propagate from the libraries below it. */
  datatype Fault =
    | ServiceError(error: ApiError)
    | DecodeFailure
    | TransportError(reason: string)

  const UnknownError: string := "Unknown error"
  const ParseFailure: string := "Failed to parse error response"

  /** Classifies one response. A status of 400 or more raises a `ServiceError`;
      a lower status returns the decoded body, or raises the decoder's own
      failure when the body is not JSON. `.get` is attempted inside the same
      `try` as the decoding, so a body that decodes to anything but an object
      is treated like one that does not decode. */
  function Dispatch(status: int, decoded: Option<Json>): (r: Result<Json, Fault>)
    ensures r.Success? <==> status < 400 && decoded.Some?
    ensures r.Success? ==> r.value == decoded.value
    ensures status < 400 && decoded.None? ==> r == Failure(DecodeFailure)
    ensures status >= 400 ==> r.Failure? && r.error.ServiceError? && r.error.error.statusCode == status
    ensures status >= 400 ==> (r.error.error.response.Some? <==> decoded.Some? && decoded.value.JObj?)
    ensures status >= 400 && r.error.error.response.Some? ==> r.error.error.response == decoded
    ensures status >= 400 && !(decoded.Some? && decoded.value.JObj?) ==>
              r.error.error.errorMessage == JStr(ParseFailure)
  {
    if status >= 400 then
      match decoded
      case Some(JObj(fields)) =>
        Failure(ServiceError(ApiError(status, Lookup(fields, "error").GetOr(JStr(UnknownError)), decoded)))
      case _ =>
        Failure(ServiceError(ApiError(status, JStr(ParseFailure), None)))
    else
      match decoded
      case Some(body) => Success(body)
      case None => Failure(DecodeFailure)
  }

  /** An error response whose object body binds `error` raises with that value
      as the message and the whole body as the response. */
  lemma DispatchErrorField(status: int, fields: seq<(string, Json)>, k: nat)
    requires status >= 400
    requires DistinctKeys(fields) && k < |fields| && fields[k].0 == "error"
    ensures Dispatch(status, Some(JObj(fields)))
            == Failure(ServiceError(ApiError(status, fields[k].1, Some(JObj(fields)))))
  {
    LookupBinding(fields, k);
  }

  /** An error response whose object body has no `error` key raises "Unknown error". */
  lemma DispatchUnknownError(status: int, fields: seq<(string, Json)>)
    requires status >= 400 && !HasKey(fields, "error")
    ensures Dispatch(status, Some(JObj(fields)))
            == Failure(ServiceError(ApiError(status, JStr(UnknownError), Some(JObj(fields)))))
  {
  }

  /** The two error scenarios of the client's test suite: a 400 with an `error`
      field and a 500 whose body does not parse. */
  lemma DispatchExamples()
    ensures Dispatch(400, Some(JObj([("error", JStr("Bad request"))])))
            == Failure(ServiceError(ApiError(400, JStr("Bad request"), Some(JObj([("error", JStr("Bad request"))])))))
    ensures Dispatch(500, None) == Failure(ServiceError(ApiError(500, JStr("Failed to parse error response"), None)))
  {
  }

  /** The success scenario of the client's test suite: a 200 reply returns its body. */
  lemma DispatchSuccessExample()
    ensures Dispatch(200, Some(JObj([("data", JStr("test_data"))]))) == Success(JObj([("data", JStr("test_data"))]))
  {
  }

  /** `_request` statement by statement, with the `try`/`except` written out:
      `raised` is what propagates out of the call, `returned` what it returns.
      Each call ends in exactly one of the two, and the outcome is `Dispatch`. */
  method RunRequestBody(status: int, decoded: Option<Json>) returns (returned: Option<Json>, raised: Option<Fault>)
    ensures returned.Some? != raised.Some?
    ensures returned.Some? ==> Dispatch(status, decoded) == Success(returned.value)
    ensures raised.Some? ==> Dispatch(status, decoded) == Failure(raised.value)
  {
    if status >= 400 {
      var errorMessage := JStr(UnknownError);
      var errorResponse: Option<Json> := None;
      // try: error_data = response.json(); error_data.get(...)
      var failed := false;
      if decoded.None? || !decoded.value.JObj? {
        failed := true;
      } else {
        var errorData := decoded.value;
        errorMessage := Lookup(errorData.fields, "error").GetOr(JStr(UnknownError));
        errorResponse := Some(errorData);
      }
      if failed {
        errorMessage := JStr(ParseFailure);
        errorResponse := None;
      }
      return None, Some(ServiceError(ApiError(status, errorMessage, errorResponse)));
    }
    if decoded.None? {
      return None, Some(DecodeFailure);
    }
    return decoded, None;
  }

  /** One request and its outcome. */
  datatype Exchange<O> = Exchange(sent: Call<O>, outcome: Result<Json, Fault>)

  /** `_request`: sends `verb` to `base_url + path` with the session's headers
      and the options untouched, then classifies the reply; a transport fault
      propagates unchanged. */
  function Request<O>(c: EvolutionApi, verb: string, path: string, options: O, transport: Call<O> -> Reply): (x: Exchange<O>)
    ensures x.sent.verb == verb && x.sent.options == options
    ensures x.sent.headers == c.headers
    ensures |x.sent.url| == |c.baseUrl| + |path|
    ensures x.sent.url[..|c.baseUrl|] == c.baseUrl && x.sent.url[|c.baseUrl|..] == path
    ensures x.outcome.Success? <==> transport(x.sent).Response? && transport(x.sent).status < 400 && transport(x.sent).body.Some?
    ensures transport(x.sent).TransportFailure? ==> x.outcome == Failure(TransportError(transport(x.sent).reason))
    ensures transport(x.sent).Response? ==> x.outcome == Dispatch(transport(x.sent).status, transport(x.sent).body)
  {
    var call := Call(verb, c.baseUrl + path, c.headers, options);
    match transport(call)
    case Response(status, body) => Exchange(call, Dispatch(status, body))
    case TransportFailure(reason) => Exchange(call, Failure(TransportError(reason)))
  }

  function Get<O>(c: EvolutionApi, path: string, options: O, transport: Call<O> -> Reply): Exchange<O> {
    Request(c, "GET", path, options, transport)
  }

  function Post<O>(c: EvolutionApi, path: string, options: O, transport: Call<O> -> Reply): Exchange<O> {
    Request(c, "POST", path, options, transport)
  }

  function Put<O>(c: EvolutionApi, path: string, options: O, transport: Call<O> -> Reply): Exchange<O> {
    Request(c, "PUT", path, options, transport)
  }

  function Delete<O>(c: EvolutionApi, path: string, options: O, transport: Call<O> -> Reply): Exchange<O> {
    Request(c, "DELETE", path, options, transport)
  }

  /** The four verb methods differ only in the verb they send. */
  lemma VerbMethods<O>(c: EvolutionApi, path: string, options: O, transport: Call<O> -> Reply)
    ensures Get(c, path, options, transport).sent == Call("GET", c.baseUrl + path, c.headers, options)
    ensures Post(c, path, options, transport).sent == Call("POST", c.baseUrl + path, c.headers, options)
    ensures Put(c, path, options, transport).sent == Call("PUT", c.baseUrl + path, c.headers, options)
    ensures Delete(c, path, options, transport).sent == Call("DELETE", c.baseUrl + path, c.headers, options)
  {
  }

  /** Every request carries the client's API key and the JSON content type, so
      clients built with different keys send different calls. */
  lemma RequestCarriesApiKey<O>(baseUrl: string, apiKey: string, session: map<string, string>,
                               verb: string, path: string, options: O, transport: Call<O> -> Reply)
    ensures var h := Request(NewClient(baseUrl, apiKey, session), verb, path, options, transport).sent.headers;
            ApiKeyHeader in h && h[ApiKeyHeader] == apiKey &&
            ContentTypeHeader in h && h[ContentTypeHeader] == JsonContentType
  {
  }

  /** With a path that starts with a slash, the trimmed base contributes no
      slash to the URL, so the slash at the junction is the path's own leading
      one (a path starting with `//` still gives two). */
  lemma SingleSlashAtJunction<O>(baseUrl: string, apiKey: string, session: map<string, string>,
                                verb: string, path: string, options: O, transport: Call<O> -> Reply)
    requires |path| > 0 && path[0] == '/'
    requires !AllSlashes(baseUrl)
    ensures var c := NewClient(baseUrl, apiKey, session);
            var url := Request(c, verb, path, options, transport).sent.url;
            0 < |c.baseUrl| < |url| && url[|c.baseUrl| - 1] != '/' && url[|c.baseUrl|] == '/'
  {
    var c := NewClient(baseUrl, apiKey, session);
    var i :| 0 <= i < |baseUrl| && baseUrl[i] != '/';
    assert baseUrl == c.baseUrl + baseUrl[|c.baseUrl|..];
    assert i < |c.baseUrl|;
  }

  /** The headers of the test suite's client. */
  const ExampleHeaders: map<string, string> := map[ContentTypeHeader := JsonContentType, ApiKeyHeader := "test-api-key"]

  /** The GET scenario of the client's test suite: the call carries the
      content type and the client's API key. */
  lemma GetExample(transport: Call<seq<(string, Json)>> -> Reply)
    requires transport(Call("GET", "https://api.example.com/test-path", ExampleHeaders, [("key", JStr("value"))]))
             == Response(200, Some(JObj([("data", JStr("test_data"))])))
    ensures var c := NewClient("https://api.example.com", "test-api-key", map[]);
            Get(c, "/test-path", [("key", JStr("value"))], transport)
            == Exchange(Call("GET", "https://api.example.com/test-path", ExampleHeaders, [("key", JStr("value"))]),
                        Success(JObj([("data", JStr("test_data"))])))
  {
    assert "https://api.example.com" + "" == "https://api.example.com";
    TrimCharacterised("https://api.example.com", "");
    assert "https://api.example.com" + "/test-path" == "https://api.example.com/test-path";
  }
}

=== FILE: exceptions.dfy ===
/** `EvolutionAPIError`: the typed error the client raises for an HTTP status of
    400 or more. It holds exactly three things: the status code, the message and
    the decoded response body (absent when the body could not be used). */
module Exceptions {
  import opened Wrappers
  import opened JsonValues
  import opened PyText

  /** The message is the value the client found under the body's `error` key,
      which a server may send as any JSON value, so it is kept as a `Json`;
      the messages the client makes up itself are `JStr`s. */
  datatype ApiError = ApiError(statusCode: int, errorMessage: Json, response: Option<Json> := None)

  /** Reads an exception text back into its status code and message. */
  function ParseText(t: string): Option<(int, string)> {
    if |t| < 5 || t[..5] != "HTTP " then None
    else
      match ParseInt(t[5..])
      case Some((n, rest)) =>
        if |rest| >= 2 && rest[0] == ':' && rest[1] == ' ' then Some((n, rest[2..])) else None
      case None => None
  }

  /** Any status code and message survive formatting and reading back. */
  lemma ParseFormatted(n: int, m: string)
    ensures ParseText("HTTP " + IntToDecimal(n) + ": " + m) == Some((n, m))
  {
    var body := IntToDecimal(n) + (": " + m);
    var t := "HTTP " + body;
    assert "HTTP " + IntToDecimal(n) + ": " + m == t;
    assert t[..5] == "HTTP " && t[5..] == body;
    IntRoundTrip(n, ": " + m);
    assert (": " + m)[2..] == m;
  }

  /** The exception's text, `f"HTTP {status_code}: {error_message}"`. It carries
      the status code and the message without loss: both read back from it. */
  function Text(e: ApiError): (t: string)
    ensures ParseText(t) == Some((e.statusCode, Str(e.errorMessage)))
    ensures e.errorMessage.JStr? ==> ParseText(t) == Some((e.statusCode, e.errorMessage.s))
  {
    ParseFormatted(e.statusCode, Str(e.errorMessage));
    "HTTP " + IntToDecimal(e.statusCode) + ": " + Str(e.errorMessage)
  }

  /** Building the error stores its arguments unchanged, leaves the response
      absent when it is not given, and renders a string message verbatim. */
  lemma Construction(statusCode: int, message: string, response: Option<Json>)
    ensures ApiError(statusCode, JStr(message)).response == None
    ensures var e := ApiError(statusCode, JStr(message), response);
            e.statusCode == statusCode && e.errorMessage == JStr(message) && e.response == response
            && Text(e) == "HTTP " + IntToDecimal(statusCode) + ": " + message
  {
  }
}

=== FILE: instances.dfy ===
/** The instance resource (evolutionapi/resources/instances.py): `Instance.create`
    assembles the request body from its keyword arguments and posts it once.

    The body is built in three steps, as in the source: a fixed field table in
    which every optional argument may be `None` and every absent event list has
    become `[]`; the proxy, added only when one is given; then every `None`
    entry dropped. */
module Instances {
  import opened Wrappers
  import opened AssocLists
  import opened JsonValues
  import opened Exceptions
  import opened Client

  /** `ProxySettings`, kept as the record the caller built; its validation
      belongs to a schema library and is not modelled. A settings object is
      always truthy in Python, so `if proxy:` only asks whether one was given. */
  datatype Proxy = ProxySettings(host: string, port: string, protocol: string := "http",
                                 username: Option<string> := None, password: Option<string> := None)

  /** The values a field of the request body can hold. */
  datatype Value =
    | VStr(s: string)
    | VBool(b: bool)
    | VInt(i: int)
    | VList(items: seq<string>)
    | VProxy(proxy: Proxy)

  /** The keyword arguments of `create`, with the defaults of its signature. */
  datatype CreateArgs = CreateArgs(
    instanceName: string,
    token: Option<string> := None,
    qrcode: bool := true,
    number: Option<string> := None,
    integration: string := "WHATSAPP-BAILEYS",
    webhook: Option<string> := None,
    webhookByEvents: bool := false,
    events: Option<seq<string>> := None,
    rejectCall: bool := false,
    msgCall: Option<string> := None,
    groupsIgnore: bool := true,
    alwaysOnline: bool := false,
    readMessages: bool := false,
    readStatus: bool := false,
    websocketEnabled: bool := false,
    websocketEvents: Option<seq<string>> := None,
    rabbitmqEnabled: bool := false,
    rabbitmqEvents: Option<seq<string>> := None,
    sqsEnabled: bool := false,
    sqsEvents: Option<seq<string>> := None,
    typebotUrl: Option<string> := None,
    typebot: Option<string> := None,
    typebotExpire: Option<int> := None,
    typebotKeywordFinish: Option<string> := None,
    typebotDelayMessage: Option<int> := None,
    typebotUnknownMessage: Option<string> := None,
    typebotListeningFromMe: bool := false,
    proxy: Option<Proxy> := None,
    chatwootAccountId: Option<int> := None,
    chatwootToken: Option<string> := None,
    chatwootUrl: Option<string> := None,
    chatwootSignMsg: bool := false,
    chatwootReopenConversation: bool := false,
    chatwootConversationPending: bool := false)

  /** A field table entry may be `None`; a payload entry never is. */
  type FieldTable = seq<(string, Option<Value>)>
  type Payload = seq<(string, Value)>

  function OptStr(o: Option<string>): Option<Value> {
    match o
    case Some(s) => Some(VStr(s))
    case None => None
  }

  function OptInt(o: Option<int>): Option<Value> {
    match o
    case Some(i) => Some(VInt(i))
    case None => None
  }

  /** Python's `events or []` on an optional list: `None` and `[]` are both
      falsy, so the supplied list comes back, or `[]` when there is none. */
  function ListOrEmpty(o: Option<seq<string>>): (r: seq<string>)
    ensures r == o.GetOr([])
  {
    match o
    case Some(items) => if |items| > 0 then items else []
    case None => []
  }

  /** The keys of the field table, in the order the source lists them. */
  const FieldNames: seq<string> := [
    "instanceName", "token", "qrcode", "number", "integration", "webhook",
    "webhook_by_events", "events", "reject_call", "msg_call", "groups_ignore",
    "always_online", "read_messages", "read_status", "websocket_enabled",
    "websocket_events", "rabbitmq_enabled", "rabbitmq_events", "sqs_enabled",
    "sqs_events", "typebot_url", "typebot", "typebot_expire",
    "typebot_keyword_finish", "typebot_delay_message", "typebot_unknown_message",
    "typebot_listening_from_me", "chatwoot_account_id", "chatwoot_token",
    "chatwoot_url", "chatwoot_sign_msg", "chatwoot_reopen_conversation",
    "chatwoot_conversation_pending"]

  const ProxyKey: string := "proxy"
  const CreatePath: string := "/instance/create"

  /** The `data` dict before the proxy is added and `None`s are dropped. */
  function Fields(a: CreateArgs): (t: FieldTable)
    ensures |t| == |FieldNames|
  {
    [ ("instanceName", Some(VStr(a.instanceName))),
      ("token", OptStr(a.token)),
      ("qrcode", Some(VBool(a.qrcode))),
      ("number", OptStr(a.number)),
      ("integration", Some(VStr(a.integration))),
      ("webhook", OptStr(a.webhook)),
      ("webhook_by_events", Some(VBool(a.webhookByEvents))),
      ("events", Some(VList(ListOrEmpty(a.events)))),
      ("reject_call", Some(VBool(a.rejectCall))),
      ("msg_call", OptStr(a.msgCall)),
      ("groups_ignore", Some(VBool(a.groupsIgnore))),
      ("always_online", Some(VBool(a.alwaysOnline))),
      ("read_messages", Some(VBool(a.readMessages))),
      ("read_status", Some(VBool(a.readStatus))),
      ("websocket_enabled", Some(VBool(a.websocketEnabled))),
      ("websocket_events", Some(VList(ListOrEmpty(a.websocketEvents)))),
      ("rabbitmq_enabled", Some(VBool(a.rabbitmqEnabled))),
      ("rabbitmq_events", Some(VList(ListOrEmpty(a.rabbitmqEvents)))),
      ("sqs_enabled", Some(VBool(a.sqsEnabled))),
      ("sqs_events", Some(VList(ListOrEmpty(a.sqsEvents)))),
      ("typebot_url", OptStr(a.typebotUrl)),
      ("typebot", OptStr(a.typebot)),
      ("typebot_expire", OptInt(a.typebotExpire)),
      ("typebot_keyword_finish", OptStr(a.typebotKeywordFinish)),
      ("typebot_delay_message", OptInt(a.typebotDelayMessage)),
      ("typebot_unknown_message", OptStr(a.typebotUnknownMessage)),
      ("typebot_listening_from_me", Some(VBool(a.typebotListeningFromMe))),
      ("chatwoot_account_id", OptInt(a.chatwootAccountId)),
      ("chatwoot_token", OptStr(a.chatwootToken)),
      ("chatwoot_url", OptStr(a.chatwootUrl)),
      ("chatwoot_sign_msg", Some(VBool(a.chatwootSignMsg))),
      ("chatwoot_reopen_conversation", Some(VBool(a.chatwootReopenConversation))),
      ("chatwoot_conversation_pending", Some(VBool(a.chatwootConversationPending))) ]
  }

  lemma FieldKeysHead(a: CreateArgs)
    ensures forall i :: 0 <= i < 11 ==> Fields(a)[i].0 == FieldNames[i]
  {
  }

  lemma FieldKeysMiddle(a: CreateArgs)
    ensures forall i :: 11 <= i < 22 ==> Fields(a)[i].0 == FieldNames[i]
  {
  }

  lemma FieldKeysTail(a: CreateArgs)
    ensures forall i :: 22 <= i < 33 ==> Fields(a)[i].0 == FieldNames[i]
  {
  }

  /** The `data` dict has exactly the keys of `FieldNames`, in that order. */
  lemma FieldKeys(a: CreateArgs)
    ensures |Fields(a)| == |FieldNames| && forall i :: 0 <= i < |FieldNames| ==> Fields(a)[i].0 == FieldNames[i]
  {
    FieldKeysHead(a);
    FieldKeysMiddle(a);
    FieldKeysTail(a);
  }

  /** `if proxy: data["proxy"] = proxy`: binds `proxy` to the settings when
      they are given and leaves every other key as it was. */
  function AddProxy(t: FieldTable, proxy: Option<Proxy>): (r: FieldTable)
    ensures proxy.Some? ==> Lookup(r, ProxyKey) == Some(Some(VProxy(proxy.value)))
    ensures forall key :: key != ProxyKey ==> Lookup(r, key) == Lookup(t, key)
    ensures proxy.None? ==> r == t
  {
    match proxy
    case Some(p) => Assign(t, ProxyKey, Some(VProxy(p)))
    case None => t
  }

  /** `{k: v for k, v in data.items() if v is not None}`: keeps exactly the
      entries whose value is present; every kept entry comes from the table
      and every present entry of the table is kept. */
  function StripNone(t: FieldTable): (r: Payload)
    ensures |r| <= |t|
    ensures forall i {:trigger HasEntry(t, r[i].0, Some(r[i].1))} ::
              0 <= i < |r| ==> HasEntry(t, r[i].0, Some(r[i].1))
    ensures forall j {:trigger HasEntry(r, t[j].0, t[j].1.value)} ::
              0 <= j < |t| && t[j].1.Some? ==> HasEntry(r, t[j].0, t[j].1.value)
  {
    if |t| == 0 then []
    else
      var rest := StripNone(t[1..]);
      assert forall i :: 0 <= i < |rest| ==> HasEntry(t, rest[i].0, Some(rest[i].1)) by {
        forall i | 0 <= i < |rest|
          ensures HasEntry(t, rest[i].0, Some(rest[i].1))
        {
          assert HasEntry(t[1..], rest[i].0, Some(rest[i].1));
          var k :| 0 <= k < |t| - 1 && t[1..][k] == (rest[i].0, Some(rest[i].1));
          assert t[k + 1] == t[1..][k];
        }
      }
      assert forall j :: 1 <= j < |t| && t[j].1.Some? ==> HasEntry(rest, t[j].0, t[j].1.value) by {
        forall j | 1 <= j < |t| && t[j].1.Some?
          ensures HasEntry(rest, t[j].0, t[j].1.value)
        {
          assert t[1..][j - 1] == t[j];
        }
      }
      var r := match t[0].1 case Some(v) => [(t[0].0, v)] + rest case None => rest;
      assert forall j :: 1 <= j < |t| && t[j].1.Some? ==> HasEntry(r, t[j].0, t[j].1.value) by {
        forall j | 1 <= j < |t| && t[j].1.Some?
          ensures HasEntry(r, t[j].0, t[j].1.value)
        {
          var k :| 0 <= k < |rest| && rest[k] == (t[j].0, t[j].1.value);
          if t[0].1.Some? {
            assert r[k + 1] == rest[k];
          } else {
            assert r[k] == rest[k];
          }
        }
      }
      assert t[0].1.Some? ==> r[0] == (t[0].0, t[0].1.value);
      r
  }

  /** Dropping `None`s from two tables one after the other is dropping them
      from their concatenation. */
  lemma {:induction false} StripNoneAppend(x: FieldTable, y: FieldTable)
    ensures StripNone(x + y) == StripNone(x) + StripNone(y)
  {
    if |x| > 0 {
      assert (x + y)[1..] == x[1..] + y;
      StripNoneAppend(x[1..], y);
    } else {
      assert x + y == y;
    }
  }

  lemma StripNoneStep(t: FieldTable, k: nat)
    requires k < |t|
    ensures StripNone(t[k..]) == (match t[k].1 case Some(v) => [(t[k].0, v)] case None => []) + StripNone(t[k + 1..])
  {
    assert t[k..][1..] == t[k + 1..];
  }

  /** The request body `create` posts: it never binds a key twice, and it
      binds a key exactly when the table (with the proxy added) binds it to a
      present value, to that value. */
  function CleanData(a: CreateArgs): (r: Payload)
    ensures DistinctKeys(r)
    ensures forall key :: Lookup(r, key)
              == (match Lookup(AddProxy(Fields(a), a.proxy), key) case Some(o) => o case None => None)
  {
    var t := AddProxy(Fields(a), a.proxy);
    TableShape(a);
    StripNoneDistinct(t);
    LookupStripNone(t);
    StripNone(t)
  }

  /** The keyword options of the one `_post` call: `json=clean_data`. */
  datatype CreateOptions = CreateOptions(json: Payload)

  /** `Instance.create`: a single POST of the payload to `/instance/create`,
      whose outcome (value or raised error) is handed back unchanged. */
  function Create(c: EvolutionApi, a: CreateArgs, transport: Call<CreateOptions> -> Reply): (x: Exchange<CreateOptions>)
    ensures x.sent == Call("POST", c.baseUrl + CreatePath, c.headers, CreateOptions(CleanData(a)))
    ensures transport(x.sent).TransportFailure? ==> x.outcome == Failure(TransportError(transport(x.sent).reason))
    ensures transport(x.sent).Response? ==> x.outcome == Dispatch(transport(x.sent).status, transport(x.sent).body)
    ensures x.outcome.Success? ==> transport(x.sent).Response? && transport(x.sent).body == Some(x.outcome.value)
  {
    Post(c, CreatePath, CreateOptions(CleanData(a)), transport)
  }

  /** A server refusing the creation with a 403 and an `error` field surfaces
      as that error, carrying the status, the message and the whole body. */
  lemma CreateRefused(c: EvolutionApi, a: CreateArgs, details: Json)
    ensures var body := JObj([("error", JStr("Forbidden")), ("response", details)]);
            Create(c, a, (call: Call<CreateOptions>) => Response(403, Some(body))).outcome
            == Failure(ServiceError(ApiError(403, JStr("Forbidden"), Some(body))))
  {
  }

  // ---------------------------------------------------------------------
  // Properties of the payload
  // ---------------------------------------------------------------------

  /** Looking a key up in the stripped table finds the entry's value exactly
      when the table binds it to a present value. */
  lemma {:induction false} LookupStripNone(t: FieldTable)
    requires DistinctKeys(t)
    ensures forall key :: Lookup(StripNone(t), key) == (match Lookup(t, key) case Some(o) => o case None => None)
  {
    if |t| > 0 {
      DistinctTail(t);
      LookupStripNone(t[1..]);
      forall key | t[0].0 == key
        ensures Lookup(StripNone(t[1..]), key) == None
      {
        forall k | 0 <= k < |t| - 1
          ensures t[1..][k].0 != key
        {
          assert t[1..][k] == t[k + 1];
        }
      }
    }
  }

  /** The tail of a table with distinct keys has distinct keys. */
  lemma DistinctTail(t: FieldTable)
    requires |t| > 0 && DistinctKeys(t)
    ensures DistinctKeys(t[1..])
  {
    forall i, j | 0 <= i < j < |t| - 1
      ensures t[1..][i].0 != t[1..][j].0
    {
      assert t[1..][i] == t[i + 1] && t[1..][j] == t[j + 1];
    }
  }

  /** The first key of a table with distinct keys is not in the body its tail gives. */
  lemma HeadNotInStrippedTail(t: FieldTable)
    requires |t| > 0 && DistinctKeys(t)
    ensures forall i :: 0 <= i < |StripNone(t[1..])| ==> StripNone(t[1..])[i].0 != t[0].0
  {
    var rest := StripNone(t[1..]);
    forall i | 0 <= i < |rest|
      ensures rest[i].0 != t[0].0
    {
      assert HasEntry(t[1..], rest[i].0, Some(rest[i].1));
      var k :| 0 <= k < |t| - 1 && t[1..][k] == (rest[i].0, Some(rest[i].1));
      assert t[k + 1] == t[1..][k];
    }
  }

  /** Stripping keeps keys distinct: the body never binds a key twice. */
  lemma {:induction false} StripNoneDistinct(t: FieldTable)
    requires DistinctKeys(t)
    ensures DistinctKeys(StripNone(t))
  {
    if |t| > 0 {
      DistinctTail(t);
      StripNoneDistinct(t[1..]);
      var rest := StripNone(t[1..]);
      if t[0].1.Some? {
        HeadNotInStrippedTail(t);
        var p := StripNone(t);
        assert p == [(t[0].0, t[0].1.value)] + rest;
        forall i, j | 0 <= i < j < |p|
          ensures p[i].0 != p[j].0
        {
          assert p[j] == rest[j - 1];
          if i > 0 {
            assert p[i] == rest[i - 1];
          }
        }
      }
    }
  }

  lemma FieldNamesDistinct()
    ensures forall i, j :: 0 <= i < j < |FieldNames| ==> FieldNames[i] != FieldNames[j]
  {
  }

  lemma ProxyKeyNotAField()
    ensures ProxyKey !in FieldNames
  {
  }

  /** The `data` dict binds no key twice and has no `proxy` key. */
  lemma FieldsShape(a: CreateArgs)
    ensures DistinctKeys(Fields(a)) && !HasKey(Fields(a), ProxyKey)
  {
    FieldNamesDistinct();
    ProxyKeyNotAField();
    FieldKeys(a);
    var f := Fields(a);
    forall k | 0 <= k < |f|
      ensures f[k].0 != ProxyKey
    {
      assert f[k].0 == FieldNames[k];
    }
  }

  /** The table with the proxy added binds no key twice, keeps the fixed
      fields at their positions, and binds `proxy` exactly when one is given. */
  lemma TableShape(a: CreateArgs)
    ensures var t := AddProxy(Fields(a), a.proxy);
            && DistinctKeys(t)
            && |t| == |FieldNames| + (if a.proxy.Some? then 1 else 0)
            && (forall i :: 0 <= i < |FieldNames| ==> t[i] == Fields(a)[i])
            && (a.proxy.Some? ==> t[|FieldNames|] == (ProxyKey, Some(VProxy(a.proxy.value))))
  {
    FieldsShape(a);
    var f := Fields(a);
    var t := AddProxy(f, a.proxy);
    if a.proxy.Some? {
      assert t == f + [(ProxyKey, Some(VProxy(a.proxy.value)))];
      forall i, j | 0 <= i < j < |t|
        ensures t[i].0 != t[j].0
      {
        assert t[i] == f[i];
        if j < |f| {
          assert t[j] == f[j];
        }
      }
    }
  }

  /** The table entry at position `i` is what the body holds under its key. */
  lemma FieldInBody(a: CreateArgs, i: nat, key: string, v: Option<Value>)
    requires i < |FieldNames| && Fields(a)[i] == (key, v)
    ensures Lookup(CleanData(a), key) == v
  {
    TableShape(a);
    var t := AddProxy(Fields(a), a.proxy);
    LookupBinding(t, i);
  }

  /** The optional scalar arguments outside the integrations are in the body
      exactly when they are not `None`, and then with the value given. */
  lemma OptionalFieldsIffSupplied(a: CreateArgs)
    ensures Lookup(CleanData(a), "token") == OptStr(a.token)
    ensures Lookup(CleanData(a), "number") == OptStr(a.number)
    ensures Lookup(CleanData(a), "webhook") == OptStr(a.webhook)
    ensures Lookup(CleanData(a), "msg_call") == OptStr(a.msgCall)
  {
    var t := Fields(a);
    assert t[1] == ("token", OptStr(a.token))
        && t[3] == ("number", OptStr(a.number))
        && t[5] == ("webhook", OptStr(a.webhook))
        && t[9] == ("msg_call", OptStr(a.msgCall));
    FieldInBody(a, 1, "token", OptStr(a.token));
    FieldInBody(a, 3, "number", OptStr(a.number));
    FieldInBody(a, 5, "webhook", OptStr(a.webhook));
    FieldInBody(a, 9, "msg_call", OptStr(a.msgCall));
  }

  /** The optional Typebot arguments are in the body exactly when they are not
      `None`, and then with the value given. */
  lemma TypebotFieldsIffSupplied(a: CreateArgs)
    ensures Lookup(CleanData(a), "typebot_url") == OptStr(a.typebotUrl)
    ensures Lookup(CleanData(a), "typebot") == OptStr(a.typebot)
    ensures Lookup(CleanData(a), "typebot_expire") == OptInt(a.typebotExpire)
    ensures Lookup(CleanData(a), "typebot_keyword_finish") == OptStr(a.typebotKeywordFinish)
    ensures Lookup(CleanData(a), "typebot_delay_message") == OptInt(a.typebotDelayMessage)
    ensures Lookup(CleanData(a), "typebot_unknown_message") == OptStr(a.typebotUnknownMessage)
  {
    var t := Fields(a);
    assert t[20] == ("typebot_url", OptStr(a.typebotUrl))
        && t[21] == ("typebot", OptStr(a.typebot))
        && t[22] == ("typebot_expire", OptInt(a.typebotExpire))
        && t[23] == ("typebot_keyword_finish", OptStr(a.typebotKeywordFinish))
        && t[24] == ("typebot_delay_message", OptInt(a.typebotDelayMessage))
        && t[25] == ("typebot_unknown_message", OptStr(a.typebotUnknownMessage));
    FieldInBody(a, 20, "typebot_url", OptStr(a.typebotUrl));
    FieldInBody(a, 21, "typebot", OptStr(a.typebot));
    FieldInBody(a, 22, "typebot_expire", OptInt(a.typebotExpire));
    FieldInBody(a, 23, "typebot_keyword_finish", OptStr(a.typebotKeywordFinish));
    FieldInBody(a, 24, "typebot_delay_message", OptInt(a.typebotDelayMessage));
    FieldInBody(a, 25, "typebot_unknown_message", OptStr(a.typebotUnknownMessage));
  }

  /** The optional Chatwoot arguments are in the body exactly when they are not
      `None`, and then with the value given. */
  lemma ChatwootFieldsIffSupplied(a: CreateArgs)
    ensures Lookup(CleanData(a), "chatwoot_account_id") == OptInt(a.chatwootAccountId)
    ensures Lookup(CleanData(a), "chatwoot_token") == OptStr(a.chatwootToken)
    ensures Lookup(CleanData(a), "chatwoot_url") == OptStr(a.chatwootUrl)
  {
    var t := Fields(a);
    assert t[27] == ("chatwoot_account_id", OptInt(a.chatwootAccountId))
        && t[28] == ("chatwoot_token", OptStr(a.chatwootToken))
        && t[29] == ("chatwoot_url", OptStr(a.chatwootUrl));
    FieldInBody(a, 27, "chatwoot_account_id", OptInt(a.chatwootAccountId));
    FieldInBody(a, 28, "chatwoot_token", OptStr(a.chatwootToken));
    FieldInBody(a, 29, "chatwoot_url", OptStr(a.chatwootUrl));
  }

  /** The four event lists are always in the body: the list given when it is
      non-empty, `[]` when it is `None` or empty. */
  lemma EventListsAlwaysPresent(a: CreateArgs)
    ensures Lookup(CleanData(a), "events") == Some(VList(a.events.GetOr([])))
    ensures Lookup(CleanData(a), "websocket_events") == Some(VList(a.websocketEvents.GetOr([])))
    ensures Lookup(CleanData(a), "rabbitmq_events") == Some(VList(a.rabbitmqEvents.GetOr([])))
    ensures Lookup(CleanData(a), "sqs_events") == Some(VList(a.sqsEvents.GetOr([])))
  {
    var t := Fields(a);
    assert t[7] == ("events", Some(VList(ListOrEmpty(a.events))))
        && t[15] == ("websocket_events", Some(VList(ListOrEmpty(a.websocketEvents))))
        && t[17] == ("rabbitmq_events", Some(VList(ListOrEmpty(a.rabbitmqEvents))))
        && t[19] == ("sqs_events", Some(VList(ListOrEmpty(a.sqsEvents))));
    FieldInBody(a, 7, "events", Some(VList(ListOrEmpty(a.events))));
    FieldInBody(a, 15, "websocket_events", Some(VList(ListOrEmpty(a.websocketEvents))));
    FieldInBody(a, 17, "rabbitmq_events", Some(VList(ListOrEmpty(a.rabbitmqEvents))));
    FieldInBody(a, 19, "sqs_events", Some(VList(ListOrEmpty(a.sqsEvents))));
  }

  /** The name, the integration and the connection flags are always in the
      body with the value given (an explicit `false` included). */
  lemma FlagsAlwaysPresent(a: CreateArgs)
    ensures Lookup(CleanData(a), "instanceName") == Some(VStr(a.instanceName))
    ensures Lookup(CleanData(a), "qrcode") == Some(VBool(a.qrcode))
    ensures Lookup(CleanData(a), "integration") == Some(VStr(a.integration))
    ensures Lookup(CleanData(a), "webhook_by_events") == Some(VBool(a.webhookByEvents))
    ensures Lookup(CleanData(a), "reject_call") == Some(VBool(a.rejectCall))
    ensures Lookup(CleanData(a), "groups_ignore") == Some(VBool(a.groupsIgnore))
    ensures Lookup(CleanData(a), "always_online") == Some(VBool(a.alwaysOnline))
    ensures Lookup(CleanData(a), "read_messages") == Some(VBool(a.readMessages))
    ensures Lookup(CleanData(a), "read_status") == Some(VBool(a.readStatus))
  {
    var t := Fields(a);
    assert t[0] == ("instanceName", Some(VStr(a.instanceName)))
        && t[2] == ("qrcode", Some(VBool(a.qrcode)))
        && t[4] == ("integration", Some(VStr(a.integration)))
        && t[6] == ("webhook_by_events", Some(VBool(a.webhookByEvents)))
        && t[8] == ("reject_call", Some(VBool(a.rejectCall)))
        && t[10] == ("groups_ignore", Some(VBool(a.groupsIgnore)))
        && t[11] == ("always_online", Some(VBool(a.alwaysOnline)))
        && t[12] == ("read_messages", Some(VBool(a.readMessages)))
        && t[13] == ("read_status", Some(VBool(a.readStatus)));
    FieldInBody(a, 0, "instanceName", Some(VStr(a.instanceName)));
    FieldInBody(a, 2, "qrcode", Some(VBool(a.qrcode)));
    FieldInBody(a, 4, "integration", Some(VStr(a.integration)));
    FieldInBody(a, 6, "webhook_by_events", Some(VBool(a.webhookByEvents)));
    FieldInBody(a, 8, "reject_call", Some(VBool(a.rejectCall)));
    FieldInBody(a, 10, "groups_ignore", Some(VBool(a.groupsIgnore)));
    FieldInBody(a, 11, "always_online", Some(VBool(a.alwaysOnline)));
    FieldInBody(a, 12, "read_messages", Some(VBool(a.readMessages)));
    FieldInBody(a, 13, "read_status", Some(VBool(a.readStatus)));
  }

  /** The flags of the event and bot integrations are always in the body with
      the value given (an explicit `false` included). */
  lemma IntegrationFlagsAlwaysPresent(a: CreateArgs)
    ensures Lookup(CleanData(a), "websocket_enabled") == Some(VBool(a.websocketEnabled))
    ensures Lookup(CleanData(a), "rabbitmq_enabled") == Some(VBool(a.rabbitmqEnabled))
    ensures Lookup(CleanData(a), "sqs_enabled") == Some(VBool(a.sqsEnabled))
    ensures Lookup(CleanData(a), "typebot_listening_from_me") == Some(VBool(a.typebotListeningFromMe))
    ensures Lookup(CleanData(a), "chatwoot_sign_msg") == Some(VBool(a.chatwootSignMsg))
    ensures Lookup(CleanData(a), "chatwoot_reopen_conversation") == Some(VBool(a.chatwootReopenConversation))
    ensures Lookup(CleanData(a), "chatwoot_conversation_pending") == Some(VBool(a.chatwootConversationPending))
  {
    var t := Fields(a);
    assert t[14] == ("websocket_enabled", Some(VBool(a.websocketEnabled)))
        && t[16] == ("rabbitmq_enabled", Some(VBool(a.rabbitmqEnabled)))
        && t[18] == ("sqs_enabled", Some(VBool(a.sqsEnabled)))
        && t[26] == ("typebot_listening_from_me", Some(VBool(a.typebotListeningFromMe)))
        && t[30] == ("chatwoot_sign_msg", Some(VBool(a.chatwootSignMsg)))
        && t[31] == ("chatwoot_reopen_conversation", Some(VBool(a.chatwootReopenConversation)))
        && t[32] == ("chatwoot_conversation_pending", Some(VBool(a.chatwootConversationPending)));
    FieldInBody(a, 14, "websocket_enabled", Some(VBool(a.websocketEnabled)));
    FieldInBody(a, 16, "rabbitmq_enabled", Some(VBool(a.rabbitmqEnabled)));
    FieldInBody(a, 18, "sqs_enabled", Some(VBool(a.sqsEnabled)));
    FieldInBody(a, 26, "typebot_listening_from_me", Some(VBool(a.typebotListeningFromMe)));
    FieldInBody(a, 30, "chatwoot_sign_msg", Some(VBool(a.chatwootSignMsg)));
    FieldInBody(a, 31, "chatwoot_reopen_conversation", Some(VBool(a.chatwootReopenConversation)));
    FieldInBody(a, 32, "chatwoot_conversation_pending", Some(VBool(a.chatwootConversationPending)));
  }

  /** The body binds `proxy` exactly when a proxy is given, to that proxy. */
  lemma ProxyIffSupplied(a: CreateArgs)
    ensures Lookup(CleanData(a), ProxyKey) == (match a.proxy case Some(p) => Some(VProxy(p)) case None => None)
  {
    TableShape(a);
    var t := AddProxy(Fields(a), a.proxy);
    if a.proxy.Some? {
      LookupBinding(t, |FieldNames|);
    } else {
      ProxyKeyNotAField();
      forall k | 0 <= k < |t|
        ensures t[k].0 != ProxyKey
      {
        assert t[k].0 == FieldNames[k];
      }
    }
  }

  /** Every key of the body is a key of the field table or `proxy`. */
  lemma PayloadKeysKnown(a: CreateArgs)
    ensures forall i :: 0 <= i < |CleanData(a)| ==>
              CleanData(a)[i].0 == ProxyKey || exists j :: 0 <= j < |FieldNames| && CleanData(a)[i].0 == FieldNames[j]
  {
    TableShape(a);
    FieldKeys(a);
    var t := AddProxy(Fields(a), a.proxy);
    var p := CleanData(a);
    forall i | 0 <= i < |p|
      ensures p[i].0 == ProxyKey || exists j :: 0 <= j < |FieldNames| && p[i].0 == FieldNames[j]
    {
      assert HasEntry(t, p[i].0, Some(p[i].1));
      var j :| 0 <= j < |t| && t[j] == (p[i].0, Some(p[i].1));
      if j < |FieldNames| {
        assert t[j].0 == FieldNames[j];
      }
    }
  }

  /** The table `create` builds for `Instance.create("teste-docs", token="my-custom-token")`,
      cut into short runs, and the body each run contributes. */
  function MinimalTable1(): FieldTable {
    [
      ("instanceName", Some(VStr("teste-docs"))),
      ("token", Some(VStr("my-custom-token"))),
      ("qrcode", Some(VBool(true))),
      ("number", None),
      ("integration", Some(VStr("WHATSAPP-BAILEYS"))),
      ("webhook", None)]
  }

  function MinimalBody1(): Payload {
    [
      ("instanceName", VStr("teste-docs")),
      ("token", VStr("my-custom-token")),
      ("qrcode", VBool(true)),
      ("integration", VStr("WHATSAPP-BAILEYS"))]
  }

  function MinimalTable2(): FieldTable {
    [
      ("webhook_by_events", Some(VBool(false))),
      ("events", Some(VList([]))),
      ("reject_call", Some(VBool(false))),
      ("msg_call", None),
      ("groups_ignore", Some(VBool(true))),
      ("always_online", Some(VBool(false)))]
  }

  function MinimalBody2(): Payload {
    [
      ("webhook_by_events", VBool(false)),
      ("events", VList([])),
      ("reject_call", VBool(false)),
      ("groups_ignore", VBool(true)),
      ("always_online", VBool(false))]
  }

  function MinimalTable3(): FieldTable {
    [
      ("read_messages", Some(VBool(false))),
      ("read_status", Some(VBool(false))),
      ("websocket_enabled", Some(VBool(false))),
      ("websocket_events", Some(VList([]))),
      ("rabbitmq_enabled", Some(VBool(false))),
      ("rabbitmq_events", Some(VList([])))]
  }

  function MinimalBody3(): Payload {
    [
      ("read_messages", VBool(false)),
      ("read_status", VBool(false)),
      ("websocket_enabled", VBool(false)),
      ("websocket_events", VList([])),
      ("rabbitmq_enabled", VBool(false)),
      ("rabbitmq_events", VList([]))]
  }

  function MinimalTable4(): FieldTable {
    [
      ("sqs_enabled", Some(VBool(false))),
      ("sqs_events", Some(VList([]))),
      ("typebot_url", None),
      ("typebot", None),
      ("typebot_expire", None),
      ("typebot_keyword_finish", None)]
  }

  function MinimalBody4(): Payload {
    [
      ("sqs_enabled", VBool(false)),
      ("sqs_events", VList([]))]
  }

  function MinimalTable5(): FieldTable {
    [
      ("typebot_delay_message", None),
      ("typebot_unknown_message", None),
      ("typebot_listening_from_me", Some(VBool(false))),
      ("chatwoot_account_id", None),
      ("chatwoot_token", None),
      ("chatwoot_url", None)]
  }

  function MinimalBody5(): Payload {
    [
      ("typebot_listening_from_me", VBool(false))]
  }

  function MinimalTable6(): FieldTable {
    [
      ("chatwoot_sign_msg", Some(VBool(false))),
      ("chatwoot_reopen_conversation", Some(VBool(false))),
      ("chatwoot_conversation_pending", Some(VBool(false)))]
  }

  function MinimalBody6(): Payload {
    [
      ("chatwoot_sign_msg", VBool(false)),
      ("chatwoot_reopen_conversation", VBool(false)),
      ("chatwoot_conversation_pending", VBool(false))]
  }

  lemma StripMinimal1()
    ensures StripNone(MinimalTable1()) == MinimalBody1()
  {
    var t := MinimalTable1();
    StripNoneStep(t, 5);
    StripNoneStep(t, 4);
    StripNoneStep(t, 3);
    StripNoneStep(t, 2);
    StripNoneStep(t, 1);
    StripNoneStep(t, 0);
    assert t[0..] == t;
  }

  lemma StripMinimal2()
    ensures StripNone(MinimalTable2()) == MinimalBody2()
  {
    var t := MinimalTable2();
    StripNoneStep(t, 5);
    StripNoneStep(t, 4);
    StripNoneStep(t, 3);
    StripNoneStep(t, 2);
    StripNoneStep(t, 1);
    StripNoneStep(t, 0);
    assert t[0..] == t;
  }

  lemma StripMinimal3()
    ensures StripNone(MinimalTable3()) == MinimalBody3()
  {
    var t := MinimalTable3();
    StripNoneStep(t, 5);
    StripNoneStep(t, 4);
    StripNoneStep(t, 3);
    StripNoneStep(t, 2);
    StripNoneStep(t, 1);
    StripNoneStep(t, 0);
    assert t[0..] == t;
  }

  lemma StripMinimal4()
    ensures StripNone(MinimalTable4()) == MinimalBody4()
  {
    var t := MinimalTable4();
    StripNoneStep(t, 5);
    StripNoneStep(t, 4);
    StripNoneStep(t, 3);
    StripNoneStep(t, 2);
    StripNoneStep(t, 1);
    StripNoneStep(t, 0);
    assert t[0..] == t;
  }

  lemma StripMinimal5()
    ensures StripNone(MinimalTable5()) == MinimalBody5()
  {
    var t := MinimalTable5();
    StripNoneStep(t, 5);
    StripNoneStep(t, 4);
    StripNoneStep(t, 3);
    StripNoneStep(t, 2);
    StripNoneStep(t, 1);
    StripNoneStep(t, 0);
    assert t[0..] == t;
  }

  lemma StripMinimal6()
    ensures StripNone(MinimalTable6()) == MinimalBody6()
  {
    var t := MinimalTable6();
    StripNoneStep(t, 2);
    StripNoneStep(t, 1);
    StripNoneStep(t, 0);
    assert t[0..] == t;
  }

  /** The table of the minimal call is the six runs, in order. */
  lemma MinimalTable()
    ensures Fields(CreateArgs("teste-docs", token := Some("my-custom-token"))) == MinimalTable1() + MinimalTable2() + MinimalTable3() + MinimalTable4() + MinimalTable5() + MinimalTable6()
  {
  }

  /** The expected body has 21 entries and no `proxy` key. */
  lemma MinimalBodyShape()
    ensures |MinimalBody()| == 21 && !HasKey(MinimalBody(), ProxyKey)
  {
    var b := MinimalBody();
    forall k | 0 <= k < |b| ensures b[k].0 != ProxyKey {
    }
  }

  /** The body the instance tests expect from a call with only a name and a
      token: 21 keys, none of them `proxy`, in the order `create` writes them. */
  function MinimalBody(): Payload {
    MinimalBody1() + MinimalBody2() + MinimalBody3() + MinimalBody4() + MinimalBody5() + MinimalBody6()
  }

  /** Creating an instance with only a name and a token posts exactly these
      21 fields, in this order, and no `proxy`. */
  lemma MinimalPayload()
    ensures CleanData(CreateArgs("teste-docs", token := Some("my-custom-token"))) == MinimalBody()
  {
    MinimalTable();
    StripMinimal1();
    StripMinimal2();
    StripMinimal3();
    StripMinimal4();
    StripMinimal5();
    StripMinimal6();
    StripNoneAppend(MinimalTable1(), MinimalTable2());
    StripNoneAppend(MinimalTable1() + MinimalTable2(), MinimalTable3());
    StripNoneAppend(MinimalTable1() + MinimalTable2() + MinimalTable3(), MinimalTable4());
    StripNoneAppend(MinimalTable1() + MinimalTable2() + MinimalTable3() + MinimalTable4(), MinimalTable5());
    StripNoneAppend(MinimalTable1() + MinimalTable2() + MinimalTable3() + MinimalTable4() + MinimalTable5(), MinimalTable6());
  }
}

=== FILE: json_values.dfy ===
/** Decoded JSON values, as `response.json()` hands them to the client.
    Objects keep their keys in document order (Python dicts preserve insertion
    order) as association lists; a decoder never yields the same key twice.
    JSON numbers with a fraction or exponent are not modelled. */
module JsonValues {

  datatype Json =
    | JNull
    | JBool(b: bool)
    | JInt(i: int)
    | JStr(s: string)
    | JArr(items: seq<Json>)
    | JObj(fields: seq<(string, Json)>)
}

=== FILE: py_text.dfy ===
/** Python's `str()` and `repr()` of the values the client formats into an
    exception message: integers (the status code) and decoded JSON values (the
    `error` field of a response body). Each rendering comes with a reader for
    Python literals that recovers the rendered value, so the rendering loses
    nothing. */
module PyText {
  import opened Wrappers
  import opened JsonValues

  // ---------------------------------------------------------------------
  // Decimal integers: str(int)
  // ---------------------------------------------------------------------

  predicate IsDigit(c: char) {
    '0' <= c <= '9'
  }

  predicate AllDigits(s: string) {
    forall i :: 0 <= i < |s| ==> IsDigit(s[i])
  }

  /** What may follow a rendered number without being read as part of it. */
  predicate NoDigitNext(rest: string) {
    |rest| == 0 || !IsDigit(rest[0])
  }

  function DigitChar(d: int): (c: char)
    requires 0 <= d < 10
    ensures IsDigit(c) && (c as int) - ('0' as int) == d
  {
    "0123456789"[d]
  }

  function DigitValue(c: char): int
    requires IsDigit(c)
  {
    (c as int) - ('0' as int)
  }

  /** The decimal digits of `n`, most significant first, without leading zeros. */
  function NatToDecimal(n: nat): (s: string)
    ensures |s| >= 1 && AllDigits(s)
    ensures |s| > 1 ==> s[0] != '0'
    decreases n
  {
    if n < 10 then [DigitChar(n)] else NatToDecimal(n / 10) + [DigitChar(n % 10)]
  }

  /** The number a string of decimal digits denotes. */
  function ParseDigits(s: string): nat
    requires AllDigits(s)
  {
    if |s| == 0 then 0 else ParseDigits(s[..|s| - 1]) * 10 + DigitValue(s[|s| - 1])
  }

  /** Reading back the decimal digits of `n` gives `n`. */
  lemma {:induction false} DecimalRoundTrip(n: nat)
    ensures ParseDigits(NatToDecimal(n)) == n
  {
    if n >= 10 {
      var s := NatToDecimal(n);
      assert s[..|s| - 1] == NatToDecimal(n / 10);
      DecimalRoundTrip(n / 10);
    }
  }

  /** Python's `str(i)` for an int: an optional minus sign, then the digits of
      |i| without leading zeros. */
  function IntToDecimal(i: int): (s: string)
    ensures |s| >= 1
    ensures s[0] == '-' <==> i < 0
    ensures i >= 0 ==> AllDigits(s) && ParseDigits(s) == i
    ensures i < 0 ==> AllDigits(s[1..]) && |s| >= 2 && ParseDigits(s[1..]) == -i
    ensures var d := if i < 0 then s[1..] else s; |d| > 1 ==> d[0] != '0'
  {
    if i < 0 then
      DecimalRoundTrip(-i);
      assert ("-" + NatToDecimal(-i))[1..] == NatToDecimal(-i);
      "-" + NatToDecimal(-i)
    else
      DecimalRoundTrip(i);
      NatToDecimal(i)
  }

  /** The length of the longest prefix of `s` made of decimal digits. */
  function DigitRun(s: string): (k: nat)
    ensures k <= |s| && AllDigits(s[..k])
    ensures NoDigitNext(s[k..])
  {
    if |s| > 0 && IsDigit(s[0]) then
      var k := 1 + DigitRun(s[1..]);
      assert s[..k] == [s[0]] + s[1..][..k - 1];
      assert s[k..] == s[1..][k - 1..];
      k
    else 0
  }

  lemma {:induction false} DigitRunOfDigits(d: string, x: string)
    requires AllDigits(d) && NoDigitNext(x)
    ensures DigitRun(d + x) == |d|
  {
    if |d| > 0 {
      assert (d + x)[1..] == d[1..] + x;
      DigitRunOfDigits(d[1..], x);
    }
  }

  /** Reads a run of decimal digits off the front of `s`. */
  function ParseNat(s: string): (r: Option<(int, string)>)
    ensures r.Some? ==> |r.value.1| < |s|
  {
    var k := DigitRun(s);
    if k == 0 then None else Some((ParseDigits(s[..k]) as int, s[k..]))
  }

  /** Reads an optionally negative decimal integer off the front of `s`. */
  function ParseInt(s: string): (r: Option<(int, string)>)
    ensures r.Some? ==> |r.value.1| < |s|
  {
    if |s| > 0 && s[0] == '-' then
      match ParseNat(s[1..])
      case Some((n, rest)) => Some((-n, rest))
      case None => None
    else ParseNat(s)
  }

  lemma NatRoundTrip(d: string, rest: string)
    requires |d| >= 1 && AllDigits(d) && NoDigitNext(rest)
    ensures ParseNat(d + rest) == Some((ParseDigits(d) as int, rest))
  {
    DigitRunOfDigits(d, rest);
    assert (d + rest)[..|d|] == d && (d + rest)[|d|..] == rest;
  }

  /** `str(i)` reads back as `i`, whatever non-digit follows it. */
  lemma IntRoundTrip(i: int, rest: string)
    requires NoDigitNext(rest)
    ensures ParseInt(IntToDecimal(i) + rest) == Some((i, rest))
  {
    var s := IntToDecimal(i);
    assert (s + rest)[0] == s[0];
    if i < 0 {
      assert (s + rest)[1..] == s[1..] + rest;
      NatRoundTrip(s[1..], rest);
    } else {
      NatRoundTrip(s, rest);
    }
  }

  // ---------------------------------------------------------------------
  // repr(str)
  // ---------------------------------------------------------------------

  function HexChar(d: int): char
    requires 0 <= d < 16
  {
    "0123456789abcdef"[d]
  }

  predicate IsHex(c: char) {
    ('0' <= c <= '9') || ('a' <= c <= 'f')
  }

  function HexValue(c: char): (d: int)
    requires IsHex(c)
    ensures 0 <= d < 16
  {
    if '0' <= c <= '9' then (c as int) - ('0' as int) else (c as int) - ('a' as int) + 10
  }

  lemma HexRoundTrip(d: int)
    requires 0 <= d < 16
    ensures IsHex(HexChar(d)) && HexValue(HexChar(d)) == d
  {
  }

  /** The characters up to U+00FF that Python does not print as themselves:
      the C0 controls, DEL with the C1 controls, the no-break space and the
      soft hyphen. `repr` writes them as `\xhh`. */
  predicate HexEscaped(c: char) {
    (c as int) < 32 || 127 <= (c as int) <= 160 || (c as int) == 173
  }

  /** The quote Python's `repr` puts around `s`: a double quote when `s` holds a
      single quote and no double quote, a single quote otherwise. */
  function QuoteFor(s: string): char {
    if '\'' in s && '"' !in s then '"' else '\''
  }

  /** How `repr` writes one character of a string delimited by `q`. */
  function EscapeChar(c: char, q: char): string {
    if c == q || c == '\\' then ['\\', c]
    else if c == '\t' then ['\\', 't']
    else if c == '\n' then ['\\', 'n']
    else if c == '\r' then ['\\', 'r']
    else if HexEscaped(c) then
      ['\\', 'x', HexChar((c as int) / 16), HexChar((c as int) % 16)]
    else [c]
  }

  function EscapeAll(s: string, q: char): string {
    if |s| == 0 then "" else EscapeChar(s[0], q) + EscapeAll(s[1..], q)
  }

  /** Python's `repr(s)` for a string. */
  function ReprStr(s: string): (r: string)
    ensures |r| >= 2 && r[0] == r[|r| - 1] && (r[0] == '\'' || r[0] == '"')
    ensures r[0] == '"' <==> '\'' in s && '"' !in s
  {
    var q := QuoteFor(s);
    [q] + EscapeAll(s, q) + [q]
  }

  function Prepend(c: char, o: Option<(string, string)>): (r: Option<(string, string)>)
    ensures r.Some? <==> o.Some?
    ensures r.Some? ==> r.value == ([c] + o.value.0, o.value.1)
  {
    match o
    case Some((t, rest)) => Some(([c] + t, rest))
    case None => None
  }

  /** Reads the body of a string literal up to its closing quote `q`, undoing
      the escapes `repr` writes; returns the string and what follows the quote. */
  function ParseQuoted(s: string, q: char): (r: Option<(string, string)>)
    ensures r.Some? ==> |r.value.1| < |s|
    decreases |s|
  {
    if |s| == 0 then None
    else if s[0] == q then Some(("", s[1..]))
    else if s[0] != '\\' then Prepend(s[0], ParseQuoted(s[1..], q))
    else if |s| < 2 then None
    else if s[1] == '\\' || s[1] == '\'' || s[1] == '"' || s[1] == 't' || s[1] == 'n' || s[1] == 'r' then
      var c := if s[1] == 't' then '\t' else if s[1] == 'n' then '\n' else if s[1] == 'r' then '\r' else s[1];
      Prepend(c, ParseQuoted(s[2..], q))
    else if s[1] == 'x' && |s| >= 4 && IsHex(s[2]) && IsHex(s[3]) then
      Prepend((HexValue(s[2]) * 16 + HexValue(s[3])) as char, ParseQuoted(s[4..], q))
    else None
  }

  /** Reads a quoted string literal off the front of `s`. */
  function ParseStrLit(s: string): (r: Option<(string, string)>)
    ensures r.Some? ==> |r.value.1| < |s|
  {
    if |s| > 0 && (s[0] == '\'' || s[0] == '"') then ParseQuoted(s[1..], s[0]) else None
  }

  lemma ScanShort(c: char, q: char, body: string, x: string, after: string)
    requires q == '\'' || q == '"'
    requires c == q || c == '\\' || c == '\t' || c == '\n' || c == '\r'
    requires ParseQuoted(body, q) == Some((x, after))
    ensures ParseQuoted(EscapeChar(c, q) + body, q) == Some(([c] + x, after))
  {
    var t := EscapeChar(c, q) + body;
    assert t[2..] == body;
  }

  lemma ScanHex(c: char, q: char, body: string, x: string, after: string)
    requires q == '\'' || q == '"'
    requires c != q && c != '\\' && c != '\t' && c != '\n' && c != '\r' && HexEscaped(c)
    requires ParseQuoted(body, q) == Some((x, after))
    ensures ParseQuoted(EscapeChar(c, q) + body, q) == Some(([c] + x, after))
  {
    var t := EscapeChar(c, q) + body;
    var n := c as int;
    HexRoundTrip(n / 16);
    HexRoundTrip(n % 16);
    assert t[2] == HexChar(n / 16) && t[3] == HexChar(n % 16);
    assert t[4..] == body;
  }

  lemma ScanStep(c: char, q: char, body: string, x: string, after: string)
    requires q == '\'' || q == '"'
    requires ParseQuoted(body, q) == Some((x, after))
    ensures ParseQuoted(EscapeChar(c, q) + body, q) == Some(([c] + x, after))
  {
    if c == q || c == '\\' || c == '\t' || c == '\n' || c == '\r' {
      ScanShort(c, q, body, x, after);
    } else if HexEscaped(c) {
      ScanHex(c, q, body, x, after);
    } else {
      assert (EscapeChar(c, q) + body)[1..] == body;
    }
  }

  lemma {:induction false} ScanAll(s: string, q: char, rest: string)
    requires q == '\'' || q == '"'
    ensures ParseQuoted(EscapeAll(s, q) + [q] + rest, q) == Some((s, rest))
  {
    if |s| == 0 {
      assert EscapeAll(s, q) + [q] + rest == [q] + rest;
    } else {
      ScanAll(s[1..], q, rest);
      assert EscapeAll(s, q) + [q] + rest == EscapeChar(s[0], q) + (EscapeAll(s[1..], q) + [q] + rest);
      ScanStep(s[0], q, EscapeAll(s[1..], q) + [q] + rest, s[1..], rest);
      assert [s[0]] + s[1..] == s;
    }
  }

  /** `repr` of a string reads back as the string, whatever follows it. */
  lemma ReprStrRoundTrip(s: string, rest: string)
    ensures ParseStrLit(ReprStr(s) + rest) == Some((s, rest))
  {
    var q := QuoteFor(s);
    assert (ReprStr(s) + rest)[1..] == EscapeAll(s, q) + [q] + rest;
    ScanAll(s, q, rest);
  }

  // ---------------------------------------------------------------------
  // str() and repr() of decoded JSON values
  // ---------------------------------------------------------------------

  /** `sep.join(parts)` */
  function Join(parts: seq<string>, sep: string): string {
    if |parts| == 0 then ""
    else if |parts| == 1 then parts[0]
    else parts[0] + sep + Join(parts[1..], sep)
  }

  /** The characters a Python literal of a decoded JSON value can start with. */
  predicate StartsValue(c: char) {
    c == 'N' || c == 'T' || c == 'F' || c == '-' || IsDigit(c)
    || c == '\'' || c == '"' || c == '[' || c == '{'
  }

  /** Python's `repr()` of a decoded JSON value (a dict, list, str, int, bool or None). */
  function Repr(j: Json): (r: string)
    ensures |r| > 0 && StartsValue(r[0])
    ensures j.JArr? ==> |r| >= 2 && r[0] == '[' && r[|r| - 1] == ']'
    ensures j.JObj? ==> |r| >= 2 && r[0] == '{' && r[|r| - 1] == '}'
    decreases j
  {
    match j
    case JNull => "None"
    case JBool(b) => if b then "True" else "False"
    case JInt(i) => IntToDecimal(i)
    case JStr(s) => ReprStr(s)
    case JArr(xs) =>
      "[" + Join(seq(|xs|, k requires 0 <= k < |xs| => Repr(xs[k])), ", ") + "]"
    case JObj(fs) =>
      "{" + Join(seq(|fs|, k requires 0 <= k < |fs| => ReprStr(fs[k].0) + ": " + Repr(fs[k].1)), ", ") + "}"
  }

  /** Reads the Python literal of a decoded JSON value off the front of `s`:
      the value and what follows it. */
  function ParseValue(s: string): (r: Option<(Json, string)>)
    ensures r.Some? ==> |r.value.1| < |s|
    decreases |s|, 0
  {
    if |s| == 0 then None
    else if s[0] == 'N' then
      if |s| >= 4 && s[1] == 'o' && s[2] == 'n' && s[3] == 'e' then Some((JNull, s[4..])) else None
    else if s[0] == 'T' then
      if |s| >= 4 && s[1] == 'r' && s[2] == 'u' && s[3] == 'e' then Some((JBool(true), s[4..])) else None
    else if s[0] == 'F' then
      if |s| >= 5 && s[1] == 'a' && s[2] == 'l' && s[3] == 's' && s[4] == 'e' then Some((JBool(false), s[5..])) else None
    else if s[0] == '-' || IsDigit(s[0]) then
      match ParseInt(s)
      case Some((i, rest)) => Some((JInt(i), rest))
      case None => None
    else if s[0] == '\'' || s[0] == '"' then
      match ParseStrLit(s)
      case Some((t, rest)) => Some((JStr(t), rest))
      case None => None
    else if s[0] == '[' then
      if |s| >= 2 && s[1] == ']' then Some((JArr([]), s[2..]))
      else
        match ParseItems(s[1..])
        case Some((xs, rest)) => Some((JArr(xs), rest))
        case None => None
    else if s[0] == '{' then
      if |s| >= 2 && s[1] == '}' then Some((JObj([]), s[2..]))
      else
        match ParseEntries(s[1..])
        case Some((fs, rest)) => Some((JObj(fs), rest))
        case None => None
    else None
  }

  /** Reads `item, item, ..., item]` off the front of `s`. */
  function ParseItems(s: string): (r: Option<(seq<Json>, string)>)
    ensures r.Some? ==> |r.value.1| < |s|
    decreases |s|, 1
  {
    match ParseValue(s)
    case None => None
    case Some((v, rest)) =>
      if |rest| >= 2 && rest[0] == ',' && rest[1] == ' ' then
        match ParseItems(rest[2..])
        case Some((vs, after)) => Some(([v] + vs, after))
        case None => None
      else if |rest| >= 1 && rest[0] == ']' then Some(([v], rest[1..]))
      else None
  }

  /** Reads one `'key': value` entry of a dict literal off the front of `s`. */
  function ParseEntry(s: string): (r: Option<((string, Json), string)>)
    ensures r.Some? ==> |r.value.1| < |s|
    decreases |s|, 1
  {
    match ParseStrLit(s)
    case None => None
    case Some((key, rest)) =>
      if |rest| < 2 || rest[0] != ':' || rest[1] != ' ' then None
      else
        match ParseValue(rest[2..])
        case None => None
        case Some((v, after)) => Some(((key, v), after))
  }

  /** Reads `'key': value, ..., 'key': value}` off the front of `s`. */
  function ParseEntries(s: string): (r: Option<(seq<(string, Json)>, string)>)
    ensures r.Some? ==> |r.value.1| < |s|
    decreases |s|, 2
  {
    match ParseEntry(s)
    case None => None
    case Some((e, rest)) =>
      if |rest| >= 2 && rest[0] == ',' && rest[1] == ' ' then
        match ParseEntries(rest[2..])
        case Some((es, after)) => Some(([e] + es, after))
        case None => None
      else if |rest| >= 1 && rest[0] == '}' then Some(([e], rest[1..]))
      else None
  }

  lemma {:induction false} ItemsRoundTrip(xs: seq<Json>, parts: seq<string>, rest: string)
    requires |xs| == |parts| > 0
    requires forall k, r :: 0 <= k < |xs| && NoDigitNext(r) ==> ParseValue(parts[k] + r) == Some((xs[k], r))
    ensures ParseItems(Join(parts, ", ") + "]" + rest) == Some((xs, rest))
    decreases |xs|
  {
    if |xs| == 1 {
      assert Join(parts, ", ") + "]" + rest == parts[0] + ("]" + rest);
      assert NoDigitNext("]" + rest);
      assert ParseValue(parts[0] + ("]" + rest)) == Some((xs[0], "]" + rest));
      assert [xs[0]] == xs;
    } else {
      var tail := Join(parts[1..], ", ") + "]" + rest;
      assert Join(parts, ", ") + "]" + rest == parts[0] + (", " + tail);
      assert NoDigitNext(", " + tail);
      assert ParseValue(parts[0] + (", " + tail)) == Some((xs[0], ", " + tail));
      assert (", " + tail)[2..] == tail;
      forall k, r | 0 <= k < |xs| - 1 && NoDigitNext(r)
        ensures ParseValue(parts[1..][k] + r) == Some((xs[1..][k], r))
      {
        assert parts[1..][k] == parts[k + 1] && xs[1..][k] == xs[k + 1];
      }
      ItemsRoundTrip(xs[1..], parts[1..], rest);
      assert [xs[0]] + xs[1..] == xs;
    }
  }

  /** `ParseEntry` once a key literal and its `: ` separator have been read. */
  lemma EntryAfterKey(s: string, key: string, after: string, value: Json, rest: string)
    requires ParseStrLit(s) == Some((key, after))
    requires |after| >= 2 && after[0] == ':' && after[1] == ' '
    requires ParseValue(after[2..]) == Some((value, rest))
    ensures ParseEntry(s) == Some(((key, value), rest))
  {
  }

  /** Regrouping the text of one entry and what follows it. */
  lemma RegroupEntry(key: string, text: string, rest: string)
    ensures key + ": " + text + rest == key + (": " + (text + rest))
  {
  }

  /** One `'key': value` entry reads back as the key and the value. */
  lemma EntryRoundTrip(key: string, value: Json, text: string, rest: string)
    requires ParseValue(text + rest) == Some((value, rest))
    ensures ParseEntry(ReprStr(key) + ": " + text + rest) == Some(((key, value), rest))
  {
    var after := ": " + (text + rest);
    ReprStrRoundTrip(key, after);
    assert after[2..] == text + rest;
    RegroupEntry(ReprStr(key), text, rest);
    EntryAfterKey(ReprStr(key) + after, key, after, value, rest);
  }

  lemma {:induction false} EntriesRoundTrip(fs: seq<(string, Json)>, parts: seq<string>, rest: string)
    requires |fs| == |parts| > 0
    requires forall k, r :: 0 <= k < |fs| && NoDigitNext(r) ==> ParseEntry(parts[k] + r) == Some((fs[k], r))
    ensures ParseEntries(Join(parts, ", ") + "}" + rest) == Some((fs, rest))
    decreases |fs|
  {
    if |fs| == 1 {
      assert Join(parts, ", ") + "}" + rest == parts[0] + ("}" + rest);
      assert NoDigitNext("}" + rest);
      assert ParseEntry(parts[0] + ("}" + rest)) == Some((fs[0], "}" + rest));
      assert [fs[0]] == fs;
    } else {
      var tail := Join(parts[1..], ", ") + "}" + rest;
      assert Join(parts, ", ") + "}" + rest == parts[0] + (", " + tail);
      assert NoDigitNext(", " + tail);
      assert ParseEntry(parts[0] + (", " + tail)) == Some((fs[0], ", " + tail));
      assert (", " + tail)[2..] == tail;
      forall k, r | 0 <= k < |fs| - 1 && NoDigitNext(r)
        ensures ParseEntry(parts[1..][k] + r) == Some((fs[1..][k], r))
      {
        assert parts[1..][k] == parts[k + 1] && fs[1..][k] == fs[k + 1];
      }
      EntriesRoundTrip(fs[1..], parts[1..], rest);
      assert [fs[0]] + fs[1..] == fs;
    }
  }

  lemma ScalarRoundTrip(j: Json, rest: string)
    requires !j.JArr? && !j.JObj? && NoDigitNext(rest)
    ensures ParseValue(Repr(j) + rest) == Some((j, rest))
  {
    var s := Repr(j) + rest;
    match j
    case JNull =>
      assert s[..4] == "None" && s[4..] == rest;
    case JBool(b) =>
      if b {
        assert s[..4] == "True" && s[4..] == rest;
      } else {
        assert s[..5] == "False" && s[5..] == rest;
      }
    case JInt(i) =>
      IntRoundTrip(i, rest);
    case JStr(t) =>
      ReprStrRoundTrip(t, rest);
  }

  /** A non-empty list literal, given how each of its items reads back. */
  lemma ArrBody(xs: seq<Json>, parts: seq<string>, rest: string)
    requires |xs| == |parts| > 0 && |parts[0]| > 0 && parts[0][0] != ']'
    requires forall k, r :: 0 <= k < |xs| && NoDigitNext(r) ==> ParseValue(parts[k] + r) == Some((xs[k], r))
    ensures ParseValue("[" + Join(parts, ", ") + "]" + rest) == Some((JArr(xs), rest))
  {
    ItemsRoundTrip(xs, parts, rest);
    var body := Join(parts, ", ") + "]" + rest;
    var s := "[" + Join(parts, ", ") + "]" + rest;
    assert s == "[" + body && s[1..] == body;
    assert body[0] == parts[0][0];
  }

  lemma ArrRoundTrip(xs: seq<Json>, rest: string)
    requires forall k, r :: 0 <= k < |xs| && NoDigitNext(r) ==> ParseValue(Repr(xs[k]) + r) == Some((xs[k], r))
    ensures ParseValue(Repr(JArr(xs)) + rest) == Some((JArr(xs), rest))
  {
    var parts := seq(|xs|, k requires 0 <= k < |xs| => Repr(xs[k]));
    assert Repr(JArr(xs)) == "[" + Join(parts, ", ") + "]";
    if |xs| == 0 {
      assert (Repr(JArr(xs)) + rest)[2..] == rest;
    } else {
      forall k, r | 0 <= k < |xs| && NoDigitNext(r)
        ensures ParseValue(parts[k] + r) == Some((xs[k], r))
      {
        assert parts[k] == Repr(xs[k]);
      }
      assert StartsValue(parts[0][0]);
      ArrBody(xs, parts, rest);
    }
  }

  /** A non-empty dict literal, given how each of its entries reads back. */
  lemma ObjBody(fs: seq<(string, Json)>, parts: seq<string>, rest: string)
    requires |fs| == |parts| > 0 && |parts[0]| > 0 && parts[0][0] != '}'
    requires forall k, r :: 0 <= k < |fs| && NoDigitNext(r) ==> ParseEntry(parts[k] + r) == Some((fs[k], r))
    ensures ParseValue("{" + Join(parts, ", ") + "}" + rest) == Some((JObj(fs), rest))
  {
    EntriesRoundTrip(fs, parts, rest);
    var body := Join(parts, ", ") + "}" + rest;
    var s := "{" + Join(parts, ", ") + "}" + rest;
    assert s == "{" + body && s[1..] == body;
    assert body[0] == parts[0][0];
  }

  lemma ObjRoundTrip(fs: seq<(string, Json)>, rest: string)
    requires forall k, r :: 0 <= k < |fs| && NoDigitNext(r) ==> ParseValue(Repr(fs[k].1) + r) == Some((fs[k].1, r))
    ensures ParseValue(Repr(JObj(fs)) + rest) == Some((JObj(fs), rest))
  {
    var parts := seq(|fs|, k requires 0 <= k < |fs| => ReprStr(fs[k].0) + ": " + Repr(fs[k].1));
    assert Repr(JObj(fs)) == "{" + Join(parts, ", ") + "}";
    if |fs| == 0 {
      assert (Repr(JObj(fs)) + rest)[2..] == rest;
    } else {
      forall k, r | 0 <= k < |fs| && NoDigitNext(r)
        ensures ParseEntry(parts[k] + r) == Some((fs[k], r))
      {
        EntryRoundTrip(fs[k].0, fs[k].1, Repr(fs[k].1), r);
      }
      assert parts[0][0] == ReprStr(fs[0].0)[0];
      ObjBody(fs, parts, rest);
    }
  }

  /** `repr()` of a decoded JSON value is lossless: reading the literal back
      gives the value, and stops exactly where the literal ends. */
  lemma {:induction false} ReprRoundTrip(j: Json, rest: string)
    requires NoDigitNext(rest)
    ensures ParseValue(Repr(j) + rest) == Some((j, rest))
    decreases j
  {
    match j
    case JArr(xs) =>
      forall k, r | 0 <= k < |xs| && NoDigitNext(r)
        ensures ParseValue(Repr(xs[k]) + r) == Some((xs[k], r))
      {
        ReprRoundTrip(xs[k], r);
      }
      ArrRoundTrip(xs, rest);
    case JObj(fs) =>
      forall k, r | 0 <= k < |fs| && NoDigitNext(r)
        ensures ParseValue(Repr(fs[k].1) + r) == Some((fs[k].1, r))
      {
        ReprRoundTrip(fs[k].1, r);
      }
      ObjRoundTrip(fs, rest);
    case _ =>
      ScalarRoundTrip(j, rest);
  }

  /** Python's `str()` of a decoded JSON value: a string is itself; anything
      else is its `repr()`, which reads back as the value. */
  function Str(j: Json): (r: string)
    ensures j.JStr? ==> r == j.s
    ensures !j.JStr? ==> ParseValue(r) == Some((j, ""))
  {
    if j.JStr? then j.s
    else
      ReprRoundTrip(j, "");
      assert Repr(j) + "" == Repr(j);
      Repr(j)
  }
}

=== FILE: wrappers.dfy ===
/** The two wrappers the rest of the model shares. `Option` stands for
    Python's `Optional[...]` (a value or `None`); `Result` stands for "a call
    returned a value" or "a call raised". */
module Wrappers {

  datatype Option<+T> = None | Some(value: T) {

    /** The wrapped value, or `default` when there is none. */
    function GetOr(default: T): T {
      match this
      case Some(v) => v
      case None => default
    }
  }

  datatype Result<+R, +E> = Success(value: R) | Failure(error: E)
}
